=== FILE: README.md ===
# Hide Boat Sails — a Dafny model

The repository holds three alternative versions of one game-client plugin that
hides the player's boat sail, plus a cover overlay. They share a class name but
differ in design, so each is its own Dafny module here:

- **SalvagePlugin** (`src/main/java/.../HideBoatSailsPlugin.java`): a timed
  "salvaging" mode. Clicking a menu option that mentions "salvage" turns it on
  for a configured number of seconds; game ticks extend it while the local
  player animates and end it once the clock is strictly past the expiry. Spawn
  events record object keys in a `handled` set that logging in clears.
- **SailOverlay** (`src/main/java/.../HideSailOverlay.java`): while salvaging,
  paints an opaque polygon over the tile of every configured sail within two
  tiles of the player.
- **DedupPlugin** (`HideBoatSailsPlugin_Version2.java`): a nearby sail (id
  60473) is handed once to the host's object manager for removal. Its key is
  remembered so that it is never handed over again until the key set is
  cleared. Logging in scans the objects already present in the same way.
- **RenderablePlugin** (`HideBoatSailsPlugin.java`): hides a sail by nulling
  its renderable and recording it in `hiddenSails`. Despawns and shutdown
  forget sails.

Shared pieces:

- **JavaInt** models Java `int` arithmetic: wrap-around modulo 2^32,
  `Math.abs(Integer.MIN_VALUE)` staying negative, and `/` truncating toward zero.
- **Text** models `toLowerCase` and `contains`.
- **Scene** holds the host records and the configuration. Its defaults are sail
  id 60473, a 6-second timeout and debug off.
- **Proximity** holds the two-tile test (`isNearPlayer`).
- **ObjectKey** holds `makeObjectKey`.

Every transition is a pure function or method: the wall clock (`now`), the local
player, the configuration, the object listing, the object manager and the tile
projection are explicit inputs.

The proximity test follows Java arithmetic exactly. When an axis difference is
exactly 2^31, the subtraction wraps to `Integer.MIN_VALUE`, and `Math.abs`
leaves it negative, so the point counts as near (`Proximity.MinValueCountsAsNear`).
Whenever both differences lie strictly between -2^31 and 2^31, the test is the
plain one: both differences are below 384 local units in size
(`Proximity.NearIffUnderThreeTiles`). A difference of exactly -2^31 fits in an
`int` but is still left negative by `Math.abs`.
Scene coordinates always fit.

## Model

| member | source | states |
|---|---|---|
| `JavaInt.Wrap` | HideBoatSailsPlugin_Version2.java:255-256 | Java `int` results: the value in range congruent to the exact result modulo 2^32, equal to it when it fits |
| `JavaInt.Abs` | src_main_java_com_example_hideboatsails_HideBoatSailsPlugin.java:103-104 | `Math.abs`: the magnitude, except that `Integer.MIN_VALUE` stays `Integer.MIN_VALUE` |
| `JavaInt.Div` | src_main_java_com_example_hideboatsails_HideBoatSailsPlugin.java:105-106 | `/` by a positive divisor truncates toward zero: the remainder has the dividend's sign and is smaller than the divisor |
| `Text.ToLower` | src_main_java_com_example_hideboatsails_HideBoatSailsPlugin.java:130 | `toLowerCase` restricted to ASCII: keeps the length and maps each upper-case ASCII letter to its lower-case letter, every other character unchanged (see Left out) |
| `Text.ContainsLowerIff` | src_main_java_com_example_hideboatsails_HideBoatSailsPlugin.java:130 | `opt.toLowerCase().contains(w)` holds exactly when `w` occurs at some position of `opt` in any letter case |
| `Proximity.TileRule` | src_main_java_com_example_hideboatsails_HideBoatSailsPlugin.java:103-107 | the per-axis tile test passes exactly when the wrapped difference is within 383 units, or is `Integer.MIN_VALUE` |
| `Proximity.IsNearPlayer` | src_main_java_com_example_hideboatsails_HideBoatSailsPlugin.java:92-108 | false without a player, a player position or a point; otherwise true exactly when both axes pass the tile rule |
| `Proximity.NearIffUnderThreeTiles` | src_main_java_com_example_hideboatsails_HideBoatSailsPlugin.java:103-107 | when the differences do not overflow, near means both differences are strictly below 384 units (3 tiles) |
| `Proximity.TileDistanceSymmetric` | src_main_java_com_example_hideboatsails_HideBoatSailsPlugin.java:103-104 | the per-axis tile test does not depend on the order of the two coordinates, wrap-around included |
| `Proximity.NearSymmetric` | src_main_java_com_example_hideboatsails_HideBoatSailsPlugin.java:92-108 | swapping the player's position and the point does not change the answer |
| `Proximity.NearSelf` | src_main_java_com_example_hideboatsails_HideBoatSailsPlugin.java:92-108 | a point is near a player standing on it |
| `Proximity.MinValueCountsAsNear` | src_main_java_com_example_hideboatsails_HideBoatSailsPlugin.java:103-107 | a point 2^31 units away on one axis counts as near, because `Math.abs` overflows |
| `ObjectKey.MakeObjectKey` | src_main_java_com_example_hideboatsails_HideBoatSailsPlugin.java:217-222 | the key is `id*31` without a position, else `id*31 + x*31 + y`, reduced once modulo 2^32 |
| `ObjectKey.KeyWrapsOnce` | HideBoatSailsPlugin_Version2.java:252-257 | wrapping after each multiplication and addition gives the same key as wrapping the exact sum once |
| `ObjectKey.KeyExactWhenSmall` | HideBoatSailsPlugin_Version2.java:255-256 | for ids and coordinates below 2^24 the key is the exact polynomial |
| `ObjectKey.KeysCollide` | HideBoatSailsPlugin_Version2.java:252-257 | distinct objects can share a key (a position-less sail and id 60472 at (1, 0)) |
| `ObjectKey.NeighbouringPositionsCollide` | HideBoatSailsPlugin_Version2.java:252-257 | two located objects with the same id share a key when one stands one unit east and 31 units south of the other (the key is not injective on positions either) |
| `SalvagePlugin.StartUp` | src_main_java_com_example_hideboatsails_HideBoatSailsPlugin.java:68-74 | start-up empties the handled set and leaves salvaging mode and expiry as they were |
| `SalvagePlugin.ShutDown` | src_main_java_com_example_hideboatsails_HideBoatSailsPlugin.java:76-84 | shutdown leaves salvaging off, expiry 0 and the handled set empty |
| `SalvagePlugin.IsNearPlayerObject` | src_main_java_com_example_hideboatsails_HideBoatSailsPlugin.java:110-118 | the object overload is false for a null object and otherwise defers to the point test on the object's position |
| `SalvagePlugin.OnMenuOptionClicked` | src_main_java_com_example_hideboatsails_HideBoatSailsPlugin.java:120-140 | an option mentioning "salvage" in any case turns salvaging on with expiry `now + d*1000`; a null or other option changes nothing; handled keys never change |
| `SalvagePlugin.OnGameTick` | src_main_java_com_example_hideboatsails_HideBoatSailsPlugin.java:142-183 | no-op when not salvaging or without a player; animation sets expiry to `now + d*1000`; salvaging stays on iff `now <= expiry`; a tick never turns salvaging on |
| `SalvagePlugin.OnGameObjectSpawned` | src_main_java_com_example_hideboatsails_HideBoatSailsPlugin.java:185-201 | a non-null spawn adds exactly its key to the handled set; a null spawn changes nothing; salvaging state is untouched |
| `SalvagePlugin.OnGameStateChanged` | src_main_java_com_example_hideboatsails_HideBoatSailsPlugin.java:203-215 | logging in empties the handled set; every other game state changes nothing |
| `SalvagePlugin.AnimationKeepsSalvaging` | src_main_java_com_example_hideboatsails_HideBoatSailsPlugin.java:164-181 | with a non-negative timeout, a tick with an animating player never ends salvaging |
| `SalvagePlugin.TickAtExpiryKeepsSalvaging` | src_main_java_com_example_hideboatsails_HideBoatSailsPlugin.java:173-181 | the expiry comparison is strict: an idle tick at the expiry keeps salvaging, one millisecond later ends it |
| `SalvagePlugin.MenuMatchIgnoresCase` | src_main_java_com_example_hideboatsails_HideBoatSailsPlugin.java:129-130 | two options that differ only in letter case have the same effect |
| `SalvagePlugin.SalvageOptionEntersMode` | src_main_java_com_example_hideboatsails_HideBoatSailsPlugin.java:129-134 | the capitalised game option "Salvage" enters salvaging mode |
| `SalvagePlugin.TicksNeverEnterSalvaging` | src_main_java_com_example_hideboatsails_HideBoatSailsPlugin.java:142-148 | outside salvaging mode any run of ticks leaves the whole state unchanged |
| `SalvagePlugin.SalvagingLastsUntilDeadline` | src_main_java_com_example_hideboatsails_HideBoatSailsPlugin.java:160-181 | ticks timed no later than the expiry and no earlier than one timeout before it keep salvaging on, and the expiry never drops below it |
| `SalvagePlugin.ClickHidesForTimeout` | src_main_java_com_example_hideboatsails_HideBoatSailsPlugin.java:130-181 | after a salvage click at time t, ticks within [t, t + d*1000] keep salvaging on |
| `SalvagePlugin.AnimatingPlayerKeepsSalvaging` | src_main_java_com_example_hideboatsails_HideBoatSailsPlugin.java:159-181 | with a non-negative timeout, a run of ticks with an animating player keeps salvaging on |
| `SailOverlay.SelectSails` | src_main_java_com_example_hideboatsails_HideSailOverlay.java:64-86 | the covered objects form a subsequence of the listing in input order; each has the configured id, a position, and is near the player |
| `SailOverlay.SelectSailsMembership` | src_main_java_com_example_hideboatsails_HideSailOverlay.java:64-86 | an object is covered iff it is listed, non-null, has the configured id and a position, and is near the player |
| `SailOverlay.OtherObjectsNeverCovered` | src_main_java_com_example_hideboatsails_HideSailOverlay.java:70-73 | objects with another id are never covered |
| `SailOverlay.Covers` | src_main_java_com_example_hideboatsails_HideSailOverlay.java:87-93 | no more polygons are painted than objects selected |
| `SailOverlay.CoversComplete` | src_main_java_com_example_hideboatsails_HideSailOverlay.java:88-92 | every selected object whose tile projects has its polygon painted |
| `SailOverlay.CoversSound` | src_main_java_com_example_hideboatsails_HideSailOverlay.java:88-92 | every painted polygon is the projection of a selected object |
| `SailOverlay.PaintSails` | src_main_java_com_example_hideboatsails_HideSailOverlay.java:64-94 | the render loop paints exactly the projections of the selected sails, in input order |
| `SailOverlay.PaintedIsCoversOfSelected` | src_main_java_com_example_hideboatsails_HideSailOverlay.java:64-94 | painting entry by entry (test each entry, project its tile, keep a polygon if one comes back) gives the same list as selecting the covered sails first and then projecting them in order |
| `SailOverlay.Render` | src_main_java_com_example_hideboatsails_HideSailOverlay.java:38-97 | nothing is painted when not salvaging or when the listing is missing or empty; otherwise the selected sails' polygons; the size is always null |
| `DedupPlugin.StartUp` | HideBoatSailsPlugin_Version2.java:57-62 | start-up empties the handled set |
| `DedupPlugin.ShutDown` | HideBoatSailsPlugin_Version2.java:64-69 | shutdown empties the handled set |
| `DedupPlugin.TryRemoveObject` | HideBoatSailsPlugin_Version2.java:157-226 | false and nothing invoked without a manager; otherwise the calls made are exactly the reference `Chain`: the exposed signatures in the fixed order removeObject(GameObject), removeGameObject, removeObject(int, LocalPoint), up to and including the first that returns normally; when all throw, every exposed one is called; the result is true iff one works |
| `DedupPlugin.ChainOfTries` | HideBoatSailsPlugin_Version2.java:173-204 | the three nested try blocks invoke exactly the exposed signatures, in order, cut after the first that works |
| `DedupPlugin.IsNearPlayerObject` | HideBoatSailsPlugin_Version2.java:228-250 | false without a player or either position; otherwise true iff both axes are within two tiles |
| `DedupPlugin.OnGameObjectSpawned` | HideBoatSailsPlugin_Version2.java:71-103 | null, non-sail or far spawns, and sails whose key is handled, change nothing and trigger no removal; otherwise exactly one removal attempt, for that object and with the outcome of `tryRemoveObject`, and the key is recorded |
| `DedupPlugin.HandledIgnoresRemovalOutcome` | HideBoatSailsPlugin_Version2.java:90-101 | the key is recorded whether or not removal succeeds: the manager never influences the handled set |
| `DedupPlugin.SpawnIdempotent` | HideBoatSailsPlugin_Version2.java:82-101 | processing the same spawn twice equals processing it once, and the second makes no attempt |
| `DedupPlugin.SpawnAll` | HideBoatSailsPlugin_Version2.java:71-103 | a run of spawns adds exactly the qualifying keys; each attempt is for a sail whose key was not handled before; no key is attempted twice |
| `DedupPlugin.SpawnAllAppend` | HideBoatSailsPlugin_Version2.java:71-103 | a run over two batches of spawns is the first run followed by the second from the state it left |
| `DedupPlugin.RunIsSpawnAll` | HideBoatSailsPlugin_Version2.java:71-155 | any history of spawns and login scans has the effect of one run over its spawn events, the scanned objects in listing order |
| `DedupPlugin.AtMostOneAttemptPerKey` | HideBoatSailsPlugin_Version2.java:55-155 | between clears, for any mix of spawns and login scans, removal is attempted at most once per key, and never for a key already handled |
| `DedupPlugin.ReplayChangesNothing` | HideBoatSailsPlugin_Version2.java:82-101 | replaying a run of spawns makes no attempt and leaves the state as it was |
| `DedupPlugin.NothingToDoWhenAllHandled` | HideBoatSailsPlugin_Version2.java:82-86 | a run whose qualifying keys are all handled makes no attempt and changes nothing |
| `DedupPlugin.AttemptsHaveQualifyingKeys` | HideBoatSailsPlugin_Version2.java:80-101 | every attempt's key belongs to an event that passed the id and proximity filter |
| `DedupPlugin.FreshQualifyingKeysAttempted` | HideBoatSailsPlugin_Version2.java:80-101 | conversely, every qualifying key of a run that was not handled before gets a removal attempt |
| `DedupPlugin.FreshKeysAttemptedExactlyOnce` | HideBoatSailsPlugin_Version2.java:71-155 | between clears, for any mix of spawns and login scans, each qualifying key not handled before is attempted exactly once |
| `DedupPlugin.ScanObjects` | HideBoatSailsPlugin_Version2.java:120-140 | the login loop treats each listed object as a spawn seen by the same player, in order |
| `DedupPlugin.OnGameStateChanged` | HideBoatSailsPlugin_Version2.java:105-155 | login with a listing runs the scan; any other state, or no listing, changes nothing |
| `RenderablePlugin.HideSail` | HideBoatSailsPlugin.java:144-151 | a sail with a renderable gets a null one and joins `hiddenSails`; with a null renderable nothing changes; no other object changes; the invariant (every hidden sail has a null renderable) is kept |
| `RenderablePlugin.HideSailIdempotent` | HideBoatSailsPlugin.java:146-150 | hiding an already hidden sail changes nothing |
| `RenderablePlugin.ShowSail` | HideBoatSailsPlugin.java:153-157 | the sail leaves `hiddenSails` and no renderable changes |
| `RenderablePlugin.HandleSailWhen` | HideBoatSailsPlugin.java:132-142 | when not navigating, handling a sail hides it; when navigating, it changes no renderable and only removes the sail from `hiddenSails`; either way the invariant and the set of known objects are kept |
| `RenderablePlugin.HandleSail` | HideBoatSailsPlugin.java:168-171 | `isNavigating` is always false, so handling a sail is hiding it |
| `RenderablePlugin.OnGameObjectDespawned` | HideBoatSailsPlugin.java:86-90 | a despawn removes only that object from `hiddenSails` and changes no renderable |
| `RenderablePlugin.RestoreAllSails` | HideBoatSailsPlugin.java:159-166 | `hiddenSails` ends empty and no renderable changes |
| `RenderablePlugin.RestoreLeavesSailHidden` | HideBoatSailsPlugin.java:153-166 | a sail that had a renderable and was hidden still has a null renderable after restoring |
| `RenderablePlugin.OnGameObjectSpawnedWith` | HideBoatSailsPlugin.java:71-84 | with a given id list, a spawn of a listed id is hidden and any other spawn changes nothing |
| `RenderablePlugin.SpawnIsInert` | HideBoatSailsPlugin.java:40-42 | with the shipped, empty id list a spawn never changes the state |
| `RenderablePlugin.HandleMatching` | HideBoatSailsPlugin.java:119-125 | the loop over the id list hides the object once if its id is listed (repeats are harmless) and otherwise does nothing |
| `RenderablePlugin.HandleTile` | HideBoatSailsPlugin.java:105-127 | one tile hides each of its non-null sails on top of the sails already hidden |
| `RenderablePlugin.RefreshAllExistingSails` | HideBoatSailsPlugin.java:92-130 | no scene: nothing changes; otherwise every sail on a non-null tile is hidden (null tiles and objects skipped), nothing else changes, the invariant is kept |
| `RenderablePlugin.NoSailsWithoutIds` | HideBoatSailsPlugin.java:40-42 | with no sail ids, no object in any scene is a sail |
| `RenderablePlugin.StartUp` | HideBoatSailsPlugin.java:44-48 | start-up refreshes the scene, which with the shipped id list changes nothing |
| `RenderablePlugin.OnGameStateChanged` | HideBoatSailsPlugin.java:62-69 | login with a scene hides the sails on it; no scene or any other state changes nothing; the invariant is kept; with the shipped, empty id list the handler changes nothing |
| `RenderablePlugin.ShutDown` | HideBoatSailsPlugin.java:50-54 | shutdown empties `hiddenSails` and changes no renderable |
| `SailRestore.HideSail` | HideBoatSailsPlugin.java:144-151 | intended hiding (see Findings): nulls the renderable and remembers the one removed; no other object's renderable changes; a sail already null changes nothing |
| `SailRestore.ShowSail` | HideBoatSailsPlugin.java:153-157 | intended showing (see Findings): a hidden sail gets its remembered renderable back and leaves the hidden map, with every other object and entry unchanged; showing a sail that is not hidden changes nothing |
| `SailRestore.RestoreAllSails` | HideBoatSailsPlugin.java:159-166 | intended restore (see Findings): every hidden sail gets its remembered renderable back and nothing else changes |
| `SailRestore.ShowUndoesHide` | HideBoatSailsPlugin.java:144-157 | intended behaviour: showing right after hiding restores the original renderables |
| `SailRestore.RestoreUndoesHide` | HideBoatSailsPlugin.java:144-166 | intended behaviour: hiding a sail and then restoring equals restoring alone |

## Left out

- Reflection is abstracted. `getMethod`/`invoke` on the object manager becomes a record of exposed and throwing signatures, fixed per manager rather than per object. The reflective `getGameObjects` listing is an input sequence, or `None` when it is unavailable.
- The final exploratory loop of `tryRemoveObject` is not modelled: it invokes nothing.
- An exception thrown part-way through the login scan's iteration, which would keep partial progress, is not modelled.
- Rendering is reduced to the list of painted polygons. Left out: `Graphics2D`, `Polygon`, `OverlayUtil`, the colour, and the overlay layer and position. `Perspective.getCanvasTilePoly` is the input function `project`.
- `System.currentTimeMillis()` is the input `now`.
- Times (`long`) are unbounded integers. `now + durationSec * 1000L` cannot reach 2^63 for any clock reading this side of the year 292,000,000.
- The model is single-threaded. `volatile` only matters for visibility between threads.
- Host plumbing is left out: injection, `provideConfig`, the overlay manager's add/remove, event-bus annotations and all logging. The `debug` flag only gates log output.
- `client == null` and "no local player" are both the input `None` for the player. In the proximity test the source treats them the same way. `onGameTick` does not check `client` for null: a null client throws a `NullPointerException` there before any field is written, so the state is unchanged, which is what `SalvagePlugin.OnGameTick` gives for `None`.
- Text.ToLower: models `toLowerCase` on ASCII letters only, so it keeps the length and leaves non-ASCII letters alone, while Java also lower-cases them ('Ä' to 'ä') and can lengthen a string ('İ' becomes two characters). Only the Kelvin sign and 'İ' lower-case to ASCII letters (k, and i plus a combining dot), and neither gives a letter of "salvage", so the verdict of `contains("salvage")` is unchanged. The no-argument `toLowerCase()` also depends on the default locale: in a Turkish or Azerbaijani locale 'I' becomes the dotless 'ı', and in a Lithuanian locale an 'I' before an accent gains a combining dot, which lengthens the string. The model assumes another default locale. The verdict is unaffected either way, because "salvage" has no 'i' and those mappings never produce one of its letters.
- `SalvagePlugin.IsSalvaging` is the one-line getter the overlay reads. It carries no contract.
- The root plugin's three-dimensional tile array is a flat sequence of optional tiles, in the loops' visiting order.
- Object identity is a reference number (`ObjRef`). A renderable is an opaque number.
- The root plugin's spawn handler does not null-check the event's object. With the empty id list it never dereferences it, so the model takes a present object.

## Findings

| source | as written | input that shows it | evidently intended | confidence | as-written member | corrected member |
|---|---|---|---|---|---|---|
| HideBoatSailsPlugin.java:153-166 | `showSail` and `restoreAllSails` run `sail.setRenderable(sail.getRenderable())`. That writes back the renderable `hideSail` already set to null. | Hide a sail whose renderable is R, then shut down (`restoreAllSails`). Its renderable is still null. | Hiding remembers R, and showing or restoring puts R back so the sail is visible again. | high that restoring changes nothing; latent while the id list is empty; not executed | `RenderablePlugin.RestoreLeavesSailHidden` | `SailRestore.RestoreUndoesHide` |

The plugin model keeps the as-written restore, because its table rows describe
the shipped code. `SailRestore` is the corrected hide/show/restore cycle, with
the round trip proved.

=== FILE: dedup_plugin.dfy ===
/**
 The removal-based plugin (HideBoatSailsPlugin_Version2.java): a sail (object id
 60473) spawning within two tiles of the local player is handed once to the
 host's object manager for removal, and its key is remembered so that the same
 sail is never handed over again until the key set is cleared. On login the
 objects already present are scanned the same way.
 */
module DedupPlugin {
  import opened Wrappers
  import opened JavaInt
  import opened Scene
  import opened Proximity
  import opened ObjectKey

  const SAIL_OBJECT_ID: Int32 := 60473

  /** The `handled` key set. */
  datatype State = State(handled: set<Int32>)

  /** `startUp` and `shutDown` both clear the key set. */
  function StartUp(s: State): (s': State)
    ensures s'.handled == {}
  {
    State({})
  }

  function ShutDown(s: State): (s': State)
    ensures s'.handled == {}
  {
    State({})
  }

  // The object manager, reached through reflection

  /** The three removal signatures looked up by name, in the order they are tried. */
  datatype Signature = RemoveObjectByObject | RemoveGameObject | RemoveObjectByIdAndPoint

  /**
   What reflection finds on the manager's class: the signatures it exposes
   (`getMethod` succeeds) and, among those, the ones whose invocation throws.
   */
  datatype ObjectManager = ObjectManager(exposes: set<Signature>, throws: set<Signature>)

  /** A removal attempt: the signatures actually invoked, in order, and the method's result. */
  datatype Removal = Removal(invoked: seq<Signature>, removed: bool)

  /** The order in which `tryRemoveObject` looks the three signatures up. */
  const FALLBACK_ORDER: seq<Signature> := [RemoveObjectByObject, RemoveGameObject, RemoveObjectByIdAndPoint]

  /** The signatures of `sigs` the manager exposes, in the same order. */
  function Exposed(mgr: ObjectManager, sigs: seq<Signature>): seq<Signature>
    decreases |sigs|
  {
    if sigs == [] then []
    else if sigs[0] in mgr.exposes then [sigs[0]] + Exposed(mgr, sigs[1..])
    else Exposed(mgr, sigs[1..])
  }

  /** `sigs` cut just after its first signature that does not throw (all of it when every one throws). */
  function UpToFirstWorking(mgr: ObjectManager, sigs: seq<Signature>): seq<Signature>
    decreases |sigs|
  {
    if sigs == [] then []
    else if sigs[0] !in mgr.throws then [sigs[0]]
    else [sigs[0]] + UpToFirstWorking(mgr, sigs[1..])
  }

  /**
   Reference definition of the calls `tryRemoveObject` makes on a manager: the
   exposed signatures in the fixed order, up to and including the first that works.
   */
  function Chain(mgr: ObjectManager): seq<Signature> {
    UpToFirstWorking(mgr, Exposed(mgr, FALLBACK_ORDER))
  }

  /** Trying the signatures of `sigs` one after the other, as the nested tries do. */
  function TryInOrder(mgr: ObjectManager, sigs: seq<Signature>): Removal
    decreases |sigs|
  {
    if sigs == [] then Removal([], false)
    else TrySignature(mgr, sigs[0], TryInOrder(mgr, sigs[1..]))
  }

  /** Trying signatures in order invokes the exposed ones up to the first that works. */
  lemma {:induction false} TryInOrderIsChain(mgr: ObjectManager, sigs: seq<Signature>)
    ensures TryInOrder(mgr, sigs).invoked == UpToFirstWorking(mgr, Exposed(mgr, sigs))
    decreases |sigs|
  {
    if sigs != [] {
      TryInOrderIsChain(mgr, sigs[1..]);
    }
  }

  /** The exposed signatures of `sigs` are exactly those of `sigs` the manager exposes. */
  lemma {:induction false} ExposedMembers(mgr: ObjectManager, sigs: seq<Signature>, sig: Signature)
    ensures sig in Exposed(mgr, sigs) <==> sig in sigs && sig in mgr.exposes
    decreases |sigs|
  {
    if sigs != [] {
      ExposedMembers(mgr, sigs[1..], sig);
      assert sig in sigs <==> sig == sigs[0] || sig in sigs[1..];
    }
  }

  /** When every signature of `sigs` throws, none is cut off. */
  lemma {:induction false} NothingCutWhenAllThrow(mgr: ObjectManager, sigs: seq<Signature>)
    requires forall k :: 0 <= k < |sigs| ==> sigs[k] in mgr.throws
    ensures UpToFirstWorking(mgr, sigs) == sigs
    decreases |sigs|
  {
    if sigs != [] {
      NothingCutWhenAllThrow(mgr, sigs[1..]);
    }
  }

  /** The one-signature case of `ChainCoversExposed`: with no working signature, an exposed one is invoked. */
  lemma ChainCoversExposedWhenAllThrow(mgr: ObjectManager, sig: Signature)
    requires Working(mgr) == {} && sig in mgr.exposes
    ensures sig in Chain(mgr)
  {
    var exposed := Exposed(mgr, FALLBACK_ORDER);
    forall k | 0 <= k < |exposed|
      ensures exposed[k] in mgr.throws
    {
      ExposedMembers(mgr, FALLBACK_ORDER, exposed[k]);
      assert exposed[k] !in Working(mgr);
    }
    NothingCutWhenAllThrow(mgr, exposed);
    assert sig.RemoveObjectByObject? || sig.RemoveGameObject? || sig.RemoveObjectByIdAndPoint?;
    ExposedMembers(mgr, FALLBACK_ORDER, sig);
  }

  /** With no working signature, the chain invokes every exposed one. */
  lemma ChainCoversExposed(mgr: ObjectManager)
    ensures Working(mgr) == {} ==> forall sig :: sig in mgr.exposes ==> sig in Chain(mgr)
  {
    if Working(mgr) == {} {
      forall sig | sig in mgr.exposes
        ensures sig in Chain(mgr)
      {
        ChainCoversExposedWhenAllThrow(mgr, sig);
      }
    }
  }

  /** The three nested lookups of `tryRemoveObject` invoke exactly the reference chain. */
  lemma ChainOfTries(m: ObjectManager)
    ensures TrySignature(m, RemoveObjectByObject,
              TrySignature(m, RemoveGameObject,
                TrySignature(m, RemoveObjectByIdAndPoint, Removal([], false)))).invoked == Chain(m)
  {
    var order := FALLBACK_ORDER;
    assert order[1..][1..][1..] == [];
    TryInOrderIsChain(m, order);
  }

  /** One step of the fallback chain: invoke `sig` if exposed, and stop at the first that returns. */
  function TrySignature(mgr: ObjectManager, sig: Signature, next: Removal): Removal {
    if sig !in mgr.exposes then next
    else if sig in mgr.throws then Removal([sig] + next.invoked, next.removed)
    else Removal([sig], true)
  }

  /** The signatures a manager exposes that can be invoked without throwing. */
  function Working(mgr: ObjectManager): set<Signature> {
    mgr.exposes - mgr.throws
  }

  /**
   `tryRemoveObject`: false without a manager. Otherwise each exposed signature is
   invoked in turn until one returns normally, which makes the result true; the
   final exploratory scan of the manager's methods invokes nothing, so when none of
   the three works the result is false.
   */
  function TryRemoveObject(mgr: Option<ObjectManager>, obj: GameObject): (r: Removal)
    ensures mgr.None? ==> r == Removal([], false)
    ensures mgr.Some? ==> r.invoked == Chain(mgr.value)
    ensures mgr.Some? ==> (r.removed <==> Working(mgr.value) != {})
    ensures mgr.Some? && Working(mgr.value) == {} ==>
              forall sig :: sig in mgr.value.exposes ==> sig in r.invoked
    ensures mgr.Some? ==> forall k :: 0 <= k < |r.invoked| ==> r.invoked[k] in mgr.value.exposes
    ensures r.removed ==> |r.invoked| > 0 && r.invoked[|r.invoked| - 1] in Working(mgr.value)
    ensures r.removed ==> forall k :: 0 <= k < |r.invoked| - 1 ==> r.invoked[k] in mgr.value.throws
    ensures |r.invoked| <= 3
  {
    match mgr
    case None => Removal([], false)
    case Some(m) =>
      WorkingNonEmpty(m);
      ChainOfTries(m);
      ChainCoversExposed(m);
      var last := TrySignature(m, RemoveObjectByIdAndPoint, Removal([], false));
      var second := TrySignature(m, RemoveGameObject, last);
      TrySignature(m, RemoveObjectByObject, second)
  }

  /** A manager has a working signature exactly when one of the three tried ones works. */
  lemma WorkingNonEmpty(m: ObjectManager)
    ensures Working(m) != {} <==>
              RemoveObjectByObject in Working(m) || RemoveGameObject in Working(m) ||
              RemoveObjectByIdAndPoint in Working(m)
  {
    if Working(m) != {} {
      var sig :| sig in Working(m);
      assert sig.RemoveObjectByObject? || sig.RemoveGameObject? || sig.RemoveObjectByIdAndPoint?;
    }
  }

  // Spawns

  /** `isNearPlayer(GameObject)`: the object's position is within two tiles of the local player. */
  function IsNearPlayerObject(player: Option<Player>, obj: GameObject): (r: bool)
    ensures r ==> player.Some? && player.value.location.Some? && obj.location.Some?
    ensures player.Some? && player.value.location.Some? && obj.location.Some? ==>
              (r <==> WithinTwoTiles(player.value.location.value, obj.location.value))
  {
    IsNearPlayer(player, obj.location)
  }

  /** The spawn filter: the object is a sail and near the local player. */
  predicate IsNearbySail(player: Option<Player>, obj: GameObject) {
    obj.id == SAIL_OBJECT_ID && IsNearPlayerObject(player, obj)
  }

  /** A removal handed to the manager: the object and what came of it. */
  datatype Attempt = Attempt(obj: GameObject, outcome: Removal)

  /** The effect of one event: the new state and the removal attempts made, in order. */
  datatype Step = Step(state: State, attempts: seq<Attempt>)

  /**
   `onGameObjectSpawned`: a null object, a non-sail or a far sail changes nothing;
   a nearby sail whose key is already handled changes nothing and is not handed to
   the manager; any other nearby sail is handed over once and its key is recorded,
   whatever the removal's outcome.
   */
  function OnGameObjectSpawned(s: State, player: Option<Player>, obj: Option<GameObject>,
                               mgr: Option<ObjectManager>): (r: Step)
    ensures obj.None? || !IsNearbySail(player, obj.value) ==> r == Step(s, [])
    ensures obj.Some? && IsNearbySail(player, obj.value) && MakeObjectKey(obj.value) in s.handled ==>
              r == Step(s, [])
    ensures obj.Some? && IsNearbySail(player, obj.value) && MakeObjectKey(obj.value) !in s.handled ==>
              r.state.handled == s.handled + {MakeObjectKey(obj.value)} &&
              |r.attempts| == 1 && r.attempts[0].obj == obj.value &&
              r.attempts[0].outcome == TryRemoveObject(mgr, obj.value)
  {
    match obj
    case None => Step(s, [])
    case Some(o) =>
      if o.id == SAIL_OBJECT_ID && IsNearPlayerObject(player, o) then
        var key := MakeObjectKey(o);
        if key in s.handled then Step(s, [])
        else
          var removed := TryRemoveObject(mgr, o);
          Step(State(s.handled + {key}), [Attempt(o, removed)])
      else Step(s, [])
  }

  /** The removal outcome never influences the key set. */
  lemma HandledIgnoresRemovalOutcome(s: State, player: Option<Player>, obj: Option<GameObject>,
                                     m1: Option<ObjectManager>, m2: Option<ObjectManager>)
    ensures OnGameObjectSpawned(s, player, obj, m1).state == OnGameObjectSpawned(s, player, obj, m2).state
    ensures |OnGameObjectSpawned(s, player, obj, m1).attempts| == |OnGameObjectSpawned(s, player, obj, m2).attempts|
  {
  }

  /** Processing the same spawn twice equals processing it once; the second makes no attempt. */
  lemma SpawnIdempotent(s: State, player: Option<Player>, obj: Option<GameObject>, mgr: Option<ObjectManager>)
    ensures var once := OnGameObjectSpawned(s, player, obj, mgr);
            var twice := OnGameObjectSpawned(once.state, player, obj, mgr);
            twice == Step(once.state, [])
  {
  }

  // Runs of spawn events

  /** A spawn event: the local player when it arrived and the object (null when absent). */
  datatype SpawnEvent = SpawnEvent(player: Option<Player>, obj: Option<GameObject>)

  /** The event passes the id and proximity filter. */
  predicate Qualifies(e: SpawnEvent) {
    e.obj.Some? && IsNearbySail(e.player, e.obj.value)
  }

  /** The keys of the events in `events` that pass the filter. */
  function QualifyingKeys(events: seq<SpawnEvent>): (keys: set<Int32>)
    ensures forall k :: 0 <= k < |events| && Qualifies(events[k]) ==> MakeObjectKey(events[k].obj.value) in keys
    decreases |events|
  {
    if events == [] then {}
    else
      var last := events[|events| - 1];
      QualifyingKeys(events[..|events| - 1]) + (if Qualifies(last) then {MakeObjectKey(last.obj.value)} else {})
  }

  /** No two attempts in the list hand over objects with the same key. */
  predicate DistinctKeys(attempts: seq<Attempt>) {
    forall i, j :: 0 <= i < j < |attempts| ==> MakeObjectKey(attempts[i].obj) != MakeObjectKey(attempts[j].obj)
  }

  /**
   The events processed one after the other, oldest first. The final key set is
   the old one plus every qualifying key; each attempt hands over a qualifying
   object whose key was not handled before, and no key is handed over twice.
   */
  function SpawnAll(s: State, events: seq<SpawnEvent>, mgr: Option<ObjectManager>): (r: Step)
    ensures r.state.handled == s.handled + QualifyingKeys(events)
    ensures forall k :: 0 <= k < |r.attempts| ==> MakeObjectKey(r.attempts[k].obj) !in s.handled
    ensures forall k :: 0 <= k < |r.attempts| ==> r.attempts[k].obj.id == SAIL_OBJECT_ID
    ensures forall k :: 0 <= k < |r.attempts| ==> MakeObjectKey(r.attempts[k].obj) in r.state.handled
    ensures DistinctKeys(r.attempts)
    decreases |events|
  {
    if events == [] then Step(s, [])
    else
      var prefix := SpawnAll(s, events[..|events| - 1], mgr);
      var last := events[|events| - 1];
      var step := OnGameObjectSpawned(prefix.state, last.player, last.obj, mgr);
      AppendKeepsDistinct(prefix.attempts, step.attempts, prefix.state.handled);
      Step(step.state, prefix.attempts + step.attempts)
  }

  /**
   Appending at most one attempt whose key is outside `handled` to attempts whose
   keys are all inside it keeps the keys distinct.
   */
  lemma AppendKeepsDistinct(before: seq<Attempt>, after: seq<Attempt>, handled: set<Int32>)
    requires DistinctKeys(before) && |after| <= 1
    requires forall k :: 0 <= k < |before| ==> MakeObjectKey(before[k].obj) in handled
    requires forall k :: 0 <= k < |after| ==> MakeObjectKey(after[k].obj) !in handled
    ensures DistinctKeys(before + after)
  {
  }

  /** The number of attempts in `attempts` that hand over an object with key `key`. */
  function AttemptsFor(attempts: seq<Attempt>, key: Int32): nat
    decreases |attempts|
  {
    if attempts == [] then 0
    else AttemptsFor(attempts[..|attempts| - 1], key) +
         (if MakeObjectKey(attempts[|attempts| - 1].obj) == key then 1 else 0)
  }

  lemma {:induction false} DistinctKeysAtMostOnce(attempts: seq<Attempt>, key: Int32)
    requires DistinctKeys(attempts)
    ensures AttemptsFor(attempts, key) <= 1
    ensures (exists k :: 0 <= k < |attempts| && MakeObjectKey(attempts[k].obj) == key) || AttemptsFor(attempts, key) == 0
    decreases |attempts|
  {
    if attempts != [] {
      var init := attempts[..|attempts| - 1];
      assert DistinctKeys(init);
      DistinctKeysAtMostOnce(init, key);
      if MakeObjectKey(attempts[|attempts| - 1].obj) == key {
        forall k | 0 <= k < |init|
          ensures MakeObjectKey(init[k].obj) != key
        {
          assert attempts[k] == init[k];
        }
      } else if AttemptsFor(init, key) != 0 {
        var k :| 0 <= k < |init| && MakeObjectKey(init[k].obj) == key;
        assert attempts[k] == init[k];
      }
    }
  }

  /** A run over `e + [last]` is the run over `e` followed by the step of `last`. */
  lemma SpawnAllSnoc(s: State, e: seq<SpawnEvent>, last: SpawnEvent, mgr: Option<ObjectManager>)
    ensures var prefix := SpawnAll(s, e, mgr);
            var step := OnGameObjectSpawned(prefix.state, last.player, last.obj, mgr);
            SpawnAll(s, e + [last], mgr) == Step(step.state, prefix.attempts + step.attempts)
  {
    assert (e + [last])[..|e|] == e;
  }

  /** The inductive step of `SpawnAllAppend`: extending `b` by one event keeps the composition. */
  lemma SpawnAllAppendSnoc(s: State, a: seq<SpawnEvent>, init: seq<SpawnEvent>, last: SpawnEvent,
                           mgr: Option<ObjectManager>)
    requires var first := SpawnAll(s, a, mgr);
             var mid := SpawnAll(first.state, init, mgr);
             SpawnAll(s, a + init, mgr) == Step(mid.state, first.attempts + mid.attempts)
    ensures var first := SpawnAll(s, a, mgr);
            var second := SpawnAll(first.state, init + [last], mgr);
            SpawnAll(s, (a + init) + [last], mgr) == Step(second.state, first.attempts + second.attempts)
  {
    var first := SpawnAll(s, a, mgr);
    var mid := SpawnAll(first.state, init, mgr);
    var step := OnGameObjectSpawned(mid.state, last.player, last.obj, mgr);
    SpawnAllSnoc(first.state, init, last, mgr);
    SpawnAllSnoc(s, a + init, last, mgr);
    assert (first.attempts + mid.attempts) + step.attempts == first.attempts + (mid.attempts + step.attempts);
  }

  /** A run over `a + b` is the run over `a` followed by the run over `b` from where it left off. */
  lemma {:induction false} SpawnAllAppend(s: State, a: seq<SpawnEvent>, b: seq<SpawnEvent>, mgr: Option<ObjectManager>)
    ensures var first := SpawnAll(s, a, mgr);
            var second := SpawnAll(first.state, b, mgr);
            SpawnAll(s, a + b, mgr) == Step(second.state, first.attempts + second.attempts)
    decreases |b|
  {
    if b == [] {
      assert a + b == a;
    } else {
      var init, last := b[..|b| - 1], b[|b| - 1];
      assert b == init + [last];
      assert a + b == (a + init) + [last];
      SpawnAllAppend(s, a, init, mgr);
      SpawnAllAppendSnoc(s, a, init, last, mgr);
    }
  }

  /** Replaying a run of spawns after itself hands nothing more over and changes nothing. */
  lemma ReplayChangesNothing(s: State, events: seq<SpawnEvent>, mgr: Option<ObjectManager>)
    ensures var first := SpawnAll(s, events, mgr);
            var again := SpawnAll(first.state, events, mgr);
            again.state == first.state && again.attempts == []
  {
    NothingToDoWhenAllHandled(SpawnAll(s, events, mgr).state, events, mgr);
  }

  /** A run whose qualifying keys are all handled already makes no attempt and changes nothing. */
  lemma {:induction false} NothingToDoWhenAllHandled(s: State, events: seq<SpawnEvent>, mgr: Option<ObjectManager>)
    requires QualifyingKeys(events) <= s.handled
    ensures SpawnAll(s, events, mgr) == Step(s, [])
    decreases |events|
  {
    if events != [] {
      var init := events[..|events| - 1];
      NothingToDoWhenAllHandled(s, init, mgr);
    }
  }

  /** Every attempt's key was among the qualifying keys of the run. */
  lemma AttemptsHaveQualifyingKeys(s: State, events: seq<SpawnEvent>, mgr: Option<ObjectManager>, k: int)
    requires 0 <= k < |SpawnAll(s, events, mgr).attempts|
    ensures MakeObjectKey(SpawnAll(s, events, mgr).attempts[k].obj) in QualifyingKeys(events)
  {
  }

  /** Conversely, every qualifying key that was not handled before gets an attempt. */
  lemma {:induction false} FreshQualifyingKeysAttempted(s: State, events: seq<SpawnEvent>,
                                                         mgr: Option<ObjectManager>, key: Int32)
    requires key in QualifyingKeys(events) && key !in s.handled
    ensures exists k :: 0 <= k < |SpawnAll(s, events, mgr).attempts| &&
                        MakeObjectKey(SpawnAll(s, events, mgr).attempts[k].obj) == key
    decreases |events|
  {
    var init, last := events[..|events| - 1], events[|events| - 1];
    var prefix := SpawnAll(s, init, mgr);
    var step := OnGameObjectSpawned(prefix.state, last.player, last.obj, mgr);
    var r := SpawnAll(s, events, mgr);
    assert r.attempts == prefix.attempts + step.attempts;
    if key in QualifyingKeys(init) {
      FreshQualifyingKeysAttempted(s, init, mgr, key);
      var k :| 0 <= k < |prefix.attempts| && MakeObjectKey(prefix.attempts[k].obj) == key;
      assert r.attempts[k] == prefix.attempts[k];
    } else {
      assert Qualifies(last) && MakeObjectKey(last.obj.value) == key;
      assert key !in prefix.state.handled;
      assert r.attempts[|prefix.attempts|] == step.attempts[0];
    }
  }

  /** A key that some attempt in the list carries is counted at least once. */
  lemma {:induction false} AttemptsForAtLeastOne(attempts: seq<Attempt>, k: int)
    requires 0 <= k < |attempts|
    ensures AttemptsFor(attempts, MakeObjectKey(attempts[k].obj)) >= 1
    decreases |attempts|
  {
    if k < |attempts| - 1 {
      var init := attempts[..|attempts| - 1];
      assert init[k] == attempts[k];
      AttemptsForAtLeastOne(init, k);
    }
  }

  // The login scan

  /** The objects of the login scan as spawn events seen by the same player. */
  function ScanEvents(player: Option<Player>, objects: seq<Option<GameObject>>): (events: seq<SpawnEvent>)
    ensures |events| == |objects|
    ensures forall k :: 0 <= k < |objects| ==> events[k] == SpawnEvent(player, objects[k])
  {
    seq(|objects|, k requires 0 <= k < |objects| => SpawnEvent(player, objects[k]))
  }

  /** Processing one more event extends the run by that event's step. */
  lemma SpawnAllStep(s: State, events: seq<SpawnEvent>, i: nat, mgr: Option<ObjectManager>)
    requires i < |events|
    ensures var prefix := SpawnAll(s, events[..i], mgr);
            var step := OnGameObjectSpawned(prefix.state, events[i].player, events[i].obj, mgr);
            SpawnAll(s, events[..i + 1], mgr) == Step(step.state, prefix.attempts + step.attempts)
  {
    assert events[..i + 1][..i] == events[..i];
  }

  /** The login scan loop: each listed object goes through the spawn filter and key check, in order. */
  method ScanObjects(s: State, player: Option<Player>, objs: seq<Option<GameObject>>, mgr: Option<ObjectManager>)
    returns (r: Step)
    ensures r == SpawnAll(s, ScanEvents(player, objs), mgr)
  {
    var events := ScanEvents(player, objs);
    var handled := s.handled;
    var attempts: seq<Attempt> := [];
    var i := 0;
    while i < |objs|
      invariant 0 <= i <= |objs|
      invariant Step(State(handled), attempts) == SpawnAll(s, events[..i], mgr)
    {
      ghost var step := OnGameObjectSpawned(State(handled), player, objs[i], mgr);
      ghost var before := attempts;
      assert SpawnAll(s, events[..i + 1], mgr) == Step(step.state, before + step.attempts) by {
        SpawnAllStep(s, events, i, mgr);
      }
      match objs[i] {
        case None =>
          assert step == Step(State(handled), []);
        case Some(go) =>
          if go.id == SAIL_OBJECT_ID && IsNearPlayerObject(player, go) {
            var key := MakeObjectKey(go);
            if key !in handled {
              var removed := TryRemoveObject(mgr, go);
              assert step == Step(State(handled + {key}), [Attempt(go, removed)]);
              attempts := attempts + [Attempt(go, removed)];
              handled := handled + {key};
            } else {
              assert step == Step(State(handled), []);
            }
          } else {
            assert step == Step(State(handled), []);
          }
      }
      assert Step(State(handled), attempts) == Step(step.state, before + step.attempts);
      i := i + 1;
    }
    assert events[..|objs|] == events;
    r := Step(State(handled), attempts);
  }

  /**
   `onGameStateChanged`: on login, the objects the client lists (`None` when the
   reflective lookup finds no listing; `None` entries for null or non-object
   elements) pass through the same filter and key check as spawns, in order.
   Other states, or no listing, change nothing.
   */
  method OnGameStateChanged(s: State, gameState: GameState, player: Option<Player>,
                            objects: Option<seq<Option<GameObject>>>, mgr: Option<ObjectManager>)
    returns (r: Step)
    ensures gameState != LoggedIn || objects.None? ==> r == Step(s, [])
    ensures gameState == LoggedIn && objects.Some? ==> r == SpawnAll(s, ScanEvents(player, objects.value), mgr)
  {
    if gameState != LoggedIn || objects.None? {
      return Step(s, []);
    }
    r := ScanObjects(s, player, objects.value, mgr);
  }

  // Histories between two clears of the key set

  /** What reaches the plugin between two clears: single spawns and login scans (with the listing, if any). */
  datatype Event =
    | Spawned(spawn: SpawnEvent)
    | LoginScan(player: Option<Player>, objects: Option<seq<Option<GameObject>>>)

  /** The spawn events an event amounts to: itself, or the scanned objects seen by one player. */
  function EventsOf(e: Event): seq<SpawnEvent> {
    match e
    case Spawned(spawn) => [spawn]
    case LoginScan(player, objects) => if objects.None? then [] else ScanEvents(player, objects.value)
  }

  /** The effect of one event, as `onGameObjectSpawned` and `onGameStateChanged(LOGGED_IN)` have it. */
  function Apply(s: State, e: Event, mgr: Option<ObjectManager>): Step {
    match e
    case Spawned(spawn) => OnGameObjectSpawned(s, spawn.player, spawn.obj, mgr)
    case LoginScan(player, objects) =>
      if objects.None? then Step(s, []) else SpawnAll(s, ScanEvents(player, objects.value), mgr)
  }

  /** A history of events handled one after the other, oldest first. */
  function Run(s: State, history: seq<Event>, mgr: Option<ObjectManager>): Step
    decreases |history|
  {
    if history == [] then Step(s, [])
    else
      var prefix := Run(s, history[..|history| - 1], mgr);
      var step := Apply(prefix.state, history[|history| - 1], mgr);
      Step(step.state, prefix.attempts + step.attempts)
  }

  /** The spawn events of a whole history, in order. */
  function Flatten(history: seq<Event>): seq<SpawnEvent>
    decreases |history|
  {
    if history == [] then []
    else Flatten(history[..|history| - 1]) + EventsOf(history[|history| - 1])
  }

  /** One event has the effect of a run over the spawn events it amounts to. */
  lemma ApplyIsSpawnAll(s: State, e: Event, mgr: Option<ObjectManager>)
    ensures Apply(s, e, mgr) == SpawnAll(s, EventsOf(e), mgr)
  {
    if e.Spawned? {
      assert [e.spawn][..0] == [];
    }
  }

  /** A history of spawns and login scans behaves as one run over its spawn events. */
  lemma {:induction false} RunIsSpawnAll(s: State, history: seq<Event>, mgr: Option<ObjectManager>)
    ensures Run(s, history, mgr) == SpawnAll(s, Flatten(history), mgr)
    decreases |history|
  {
    if history != [] {
      var init := history[..|history| - 1];
      var last := history[|history| - 1];
      RunIsSpawnAll(s, init, mgr);
      ApplyIsSpawnAll(Run(s, init, mgr).state, last, mgr);
      SpawnAllAppend(s, Flatten(init), EventsOf(last), mgr);
    }
  }

  /**
   Removal is attempted at most once per key between clears of the key set,
   whatever mix of spawns and login scans arrives, and never for a key that was
   already handled.
   */
  lemma AtMostOneAttemptPerKey(s: State, history: seq<Event>, mgr: Option<ObjectManager>, key: Int32)
    ensures AttemptsFor(Run(s, history, mgr).attempts, key) <= 1
    ensures key in s.handled ==> AttemptsFor(Run(s, history, mgr).attempts, key) == 0
  {
    RunIsSpawnAll(s, history, mgr);
    DistinctKeysAtMostOnce(SpawnAll(s, Flatten(history), mgr).attempts, key);
  }

  /**
   Between clears, every nearby sail whose key was not handled yet, whether it
   spawned or was listed at login, is handed to the manager exactly once.
   */
  lemma FreshKeysAttemptedExactlyOnce(s: State, history: seq<Event>, mgr: Option<ObjectManager>, key: Int32)
    requires key in QualifyingKeys(Flatten(history)) && key !in s.handled
    ensures AttemptsFor(Run(s, history, mgr).attempts, key) == 1
  {
    RunIsSpawnAll(s, history, mgr);
    var attempts := SpawnAll(s, Flatten(history), mgr).attempts;
    FreshQualifyingKeysAttempted(s, Flatten(history), mgr, key);
    var k :| 0 <= k < |attempts| && MakeObjectKey(attempts[k].obj) == key;
    AttemptsForAtLeastOne(attempts, k);
    DistinctKeysAtMostOnce(attempts, key);
  }
}

=== FILE: java_int.dfy ===
/**
 Java's 32-bit `int` arithmetic, written out over mathematical integers: every
 operation the plugins perform on coordinates, object ids and hash keys wraps
 around modulo 2^32, `Math.abs` leaves `Integer.MIN_VALUE` negative, and `/`
 truncates toward zero (Dafny's own `/` is Euclidean).
 */
module JavaInt {

  const TWO_32: int := 0x1_0000_0000
  const MIN_INT: int := -0x8000_0000
  const MAX_INT: int := 0x7FFF_FFFF

  /** The values of a Java `int`. */
  type Int32 = x: int | -0x8000_0000 <= x <= 0x7FFF_FFFF

  /** Two's-complement narrowing: the unique `int` congruent to `v` modulo 2^32. */
  function Wrap(v: int): (r: Int32)
    ensures (v - r) % TWO_32 == 0
    ensures MIN_INT <= v <= MAX_INT ==> r == v
  {
    (v - MIN_INT) % TWO_32 + MIN_INT
  }

  /** Wrap has exactly one result per residue class: any `int` congruent to `v` is `Wrap(v)`. */
  lemma WrapUnique(v: int, w: Int32)
    requires (v - w) % TWO_32 == 0
    ensures Wrap(v) == w
  {
  }

  /** If `v ≡ w` and `v ≡ r` then `r ≡ w` (mod 2^32). */
  lemma CongruenceSub(v: int, w: int, r: int)
    requires (v - w) % TWO_32 == 0
    requires (v - r) % TWO_32 == 0
    ensures (r - w) % TWO_32 == 0
  {
  }

  /** Congruence is preserved by addition. */
  lemma CongruenceAdd(a: int, a': int, b: int, b': int)
    requires (a - a') % TWO_32 == 0
    requires (b - b') % TWO_32 == 0
    ensures ((a + b) - (a' + b')) % TWO_32 == 0
  {
  }

  /** Wrapping the summands first does not change the wrapped sum. */
  lemma WrapOfSum(u: int, v: int)
    ensures Wrap(Wrap(u) + Wrap(v)) == Wrap(u + v)
  {
    var a: int, b: int := Wrap(u), Wrap(v);
    var w := Wrap(a + b);
    CongruenceAdd(a, u, b, v);
    CongruenceSub(a + b, w, u + v);
    WrapUnique(u + v, w);
  }

  /** Java `a + b` on `int`. */
  function Add(a: Int32, b: Int32): Int32 {
    Wrap(a + b)
  }

  /** Java `a - b` on `int`. */
  function Sub(a: Int32, b: Int32): Int32 {
    Wrap(a - b)
  }

  /** Java `a * b` on `int`. */
  function Mul(a: Int32, b: Int32): Int32 {
    Wrap(a * b)
  }

  /** Java `Math.abs(int)`: the magnitude, except that `Integer.MIN_VALUE` is its own negation. */
  function Abs(a: Int32): (r: Int32)
    ensures a != MIN_INT ==> r >= 0 && (r == a || r == -a)
    ensures a == MIN_INT ==> r == MIN_INT
  {
    if a < 0 then Wrap(-(a as int)) else a
  }

  /** Java `a / b` on `int` for a positive divisor: the quotient truncated toward zero. */
  function Div(a: Int32, b: Int32): (r: Int32)
    requires b > 0
    ensures a >= 0 ==> 0 <= a - r * b < b
    ensures a < 0 ==> -b < a - r * b <= 0
  {
    if a >= 0 then a / b else -((-(a as int)) / b)
  }
}

=== FILE: object_key.dfy ===
/**
 `makeObjectKey`: the integer the plugins remember an object by, `id*31 + (x*31 + y)`
 (or `id*31` without a position), evaluated in Java `int` arithmetic.
 */
module ObjectKey {
  import opened Wrappers
  import opened JavaInt
  import opened Scene

  /**
   The key, step by step as Java evaluates it. Whatever the intermediate
   wrap-arounds, the key is the exact sum reduced once to 32 bits.
   */
  function MakeObjectKey(obj: GameObject): (key: Int32)
    ensures obj.location.None? ==> key == Wrap(obj.id * 31)
    ensures obj.location.Some? ==>
              key == Wrap(obj.id * 31 + obj.location.value.x * 31 + obj.location.value.y)
  {
    match obj.location
    case None => Add(Mul(obj.id, 31), 0)
    case Some(lp) =>
      KeyWrapsOnce(obj.id, lp.x, lp.y);
      Add(Mul(obj.id, 31), Add(Mul(lp.x, 31), lp.y))
  }

  /** Wrapping after each of the four operations equals wrapping once at the end. */
  lemma KeyWrapsOnce(id: Int32, x: Int32, y: Int32)
    ensures Add(Mul(id, 31), Add(Mul(x, 31), y)) == Wrap(id * 31 + x * 31 + y)
  {
    WrapOfSum(x * 31, y);
    WrapOfSum(id * 31, x * 31 + y);
  }

  /** For small ids and positions (no overflow) the key is the exact polynomial. */
  lemma KeyExactWhenSmall(obj: GameObject)
    requires obj.location.Some?
    requires 0 <= obj.id < 0x100_0000
    requires 0 <= obj.location.value.x < 0x100_0000
    requires 0 <= obj.location.value.y < 0x100_0000
    ensures MakeObjectKey(obj) == obj.id * 31 + obj.location.value.x * 31 + obj.location.value.y
  {
  }

  /**
   Keys are not unique: a sail without a position is keyed like a different
   object one id lower standing at x = 1, y = 0.
   */
  lemma KeysCollide()
    ensures MakeObjectKey(GameObject(60473, None, 0)) ==
            MakeObjectKey(GameObject(60472, Some(LocalPoint(1, 0)), 0))
  {
  }

  /**
   Two located objects with the same id collide too: one local unit east and
   31 units south of a position gives the same key, whatever the id and plane.
   */
  lemma NeighbouringPositionsCollide(id: Int32, x: Int32, y: Int32, plane: Int32)
    requires x < MAX_INT && y - 31 >= MIN_INT
    ensures MakeObjectKey(GameObject(id, Some(LocalPoint(x, y)), plane)) ==
            MakeObjectKey(GameObject(id, Some(LocalPoint(x + 1, y - 31)), plane))
  {
    assert id * 31 + (x + 1) * 31 + (y - 31) == id * 31 + x * 31 + y;
  }
}

=== FILE: proximity.dfy ===
/**
 The "is this near the local player" test shared by the plugins and the overlay:
 both axis distances, in whole tiles of 128 local units, must be at most 2. The
 distance is computed in Java `int` arithmetic: a wrapping subtraction, then
 `Math.abs`, then a truncating division.
 */
module Proximity {
  import opened Wrappers
  import opened JavaInt
  import opened Scene

  const LOCAL_UNITS_PER_TILE: Int32 := 128
  const MAX_DISTANCE: Int32 := 2

  /** Whole tiles between two coordinates on one axis, as the Java expression computes it. */
  function TileDistance(a: Int32, b: Int32): Int32 {
    Div(Abs(Sub(a, b)), LOCAL_UNITS_PER_TILE)
  }

  /**
   Reference reading of the axis test on the 32-bit difference `d`: it passes when `d`
   is within 383 local units either way, and also when `d` is `Integer.MIN_VALUE`,
   whose `Math.abs` stays negative.
   */
  predicate AxisClose(d: Int32) {
    d == MIN_INT || -384 < d < 384
  }

  /** The tile test on one axis passes exactly when the wrapped difference is `AxisClose`. */
  lemma TileRule(a: Int32, b: Int32)
    ensures TileDistance(a, b) <= MAX_DISTANCE <==> AxisClose(Wrap(a - b))
  {
  }

  /** Both axes of `q` are within two tiles of `p`. */
  predicate WithinTwoTiles(p: LocalPoint, q: LocalPoint) {
    TileDistance(p.x, q.x) <= MAX_DISTANCE && TileDistance(p.y, q.y) <= MAX_DISTANCE
  }

  /**
   `isNearPlayer(LocalPoint)`: false without a player, without a player position or
   without a point; otherwise the two-tile test on both axes.
   */
  function IsNearPlayer(player: Option<Player>, lp: Option<LocalPoint>): (r: bool)
    ensures r ==> player.Some? && player.value.location.Some? && lp.Some?
    ensures player.Some? && player.value.location.Some? && lp.Some? ==>
              var p := player.value.location.value;
              var q := lp.value;
              (r <==> AxisClose(Wrap(p.x - q.x)) && AxisClose(Wrap(p.y - q.y)))
  {
    match player
    case None => false
    case Some(pl) =>
      match lp
      case None => false
      case Some(q) =>
        match pl.location
        case None => false
        case Some(p) =>
          TileRule(p.x, q.x);
          TileRule(p.y, q.y);
          WithinTwoTiles(p, q)
  }

  /**
   When neither axis difference overflows 32 bits (always the case for scene
   coordinates), the test is the plain one: both differences are under three tiles.
   */
  lemma NearIffUnderThreeTiles(pl: Player, q: LocalPoint)
    requires pl.location.Some?
    requires -MAX_INT <= pl.location.value.x - q.x <= MAX_INT
    requires -MAX_INT <= pl.location.value.y - q.y <= MAX_INT
    ensures IsNearPlayer(Some(pl), Some(q)) <==>
              var p := pl.location.value;
              -384 < p.x - q.x < 384 && -384 < p.y - q.y < 384
  {
  }

  /** Swapping the operands negates the wrapped difference, except that `Integer.MIN_VALUE` stays put. */
  lemma WrappedDifferenceSwap(a: Int32, b: Int32)
    ensures Wrap(a - b) == MIN_INT ==> Wrap(b - a) == MIN_INT
    ensures Wrap(a - b) != MIN_INT ==> Wrap(b - a) == -Wrap(a - b)
  {
    var d := Wrap(a - b);
    if d == MIN_INT {
      WrapUnique(b - a, MIN_INT);
    } else {
      WrapUnique(b - a, -d);
    }
  }

  /** The axis test does not depend on the order of the two coordinates. */
  lemma TileDistanceSymmetric(a: Int32, b: Int32)
    ensures TileDistance(a, b) <= MAX_DISTANCE <==> TileDistance(b, a) <= MAX_DISTANCE
  {
    TileRule(a, b);
    TileRule(b, a);
    WrappedDifferenceSwap(a, b);
  }

  /** Nearness is symmetric: the player is near a point iff a player there would be near the player's point. */
  lemma NearSymmetric(p: LocalPoint, q: LocalPoint, animation: Int32)
    ensures IsNearPlayer(Some(Player(Some(p), animation)), Some(q)) ==
            IsNearPlayer(Some(Player(Some(q), animation)), Some(p))
  {
    TileDistanceSymmetric(p.x, q.x);
    TileDistanceSymmetric(p.y, q.y);
  }

  /** A point is always near a player standing on it. */
  lemma NearSelf(p: LocalPoint, animation: Int32)
    ensures IsNearPlayer(Some(Player(Some(p), animation)), Some(p))
  {
  }

  /**
   Java arithmetic at the edge: a difference of exactly 2^31 on an axis wraps to
   `Integer.MIN_VALUE`, whose `Math.abs` is negative, so the test passes although
   the points are 2^31 units apart.
   */
  lemma MinValueCountsAsNear()
    ensures IsNearPlayer(Some(Player(Some(LocalPoint(0, 0)), IDLE_ANIMATION)), Some(LocalPoint(MIN_INT, 0)))
  {
  }
}

=== FILE: renderable_plugin.dfy ===
/**
 The renderable-nulling plugin (HideBoatSailsPlugin.java at the repository root):
 a sail is hidden by setting its renderable to null and remembering it in
 `hiddenSails`. Objects are identified by reference; their renderables are the
 only mutable object state the plugin touches, so the model keeps them in a map
 from object reference to (possibly null) renderable.
 */
module RenderablePlugin {
  import opened Wrappers
  import opened JavaInt
  import opened Scene

  /** An object's identity (Java reference equality). */
  type ObjRef = nat

  /** An opaque renderable reference. */
  type Renderable = nat

  /** A scene object as this plugin sees it: its identity and its object id. */
  datatype SceneObject = SceneObject(ref: ObjRef, id: Int32)

  /** Every object's current renderable (`None` is null) and the `hiddenSails` set. */
  datatype State = State(renderable: map<ObjRef, Option<Renderable>>, hiddenSails: set<ObjRef>)

  /** The sail ids the plugin looks for: the source ships the array empty. */
  const SAIL_OBJECT_IDS: seq<Int32> := []

  /** The plugin's invariant: every hidden sail is a known object whose renderable is null. */
  predicate Valid(s: State) {
    s.hiddenSails <= s.renderable.Keys &&
    forall o :: o in s.hiddenSails ==> s.renderable[o] == None
  }

  /**
   `hideSail`: a sail with a renderable loses it and joins `hiddenSails`; a sail
   whose renderable is already null is left alone. No other object changes.
   */
  function HideSail(s: State, sail: ObjRef): (s': State)
    requires sail in s.renderable
    ensures Valid(s) ==> Valid(s')
    ensures s'.renderable.Keys == s.renderable.Keys
    ensures s.renderable[sail].None? ==> s' == s
    ensures s.renderable[sail].Some? ==>
              s'.renderable[sail] == None && s'.hiddenSails == s.hiddenSails + {sail}
    ensures forall o :: o in s.renderable && o != sail ==> s'.renderable[o] == s.renderable[o]
  {
    if s.renderable[sail].Some? then
      State(s.renderable[sail := None], s.hiddenSails + {sail})
    else
      s
  }

  /** Hiding is idempotent. */
  lemma HideSailIdempotent(s: State, sail: ObjRef)
    requires sail in s.renderable
    ensures HideSail(HideSail(s, sail), sail) == HideSail(s, sail)
  {
  }

  /**
   `showSail`: re-sets the sail's renderable to its current value, so no renderable
   changes, and removes the sail from `hiddenSails`.
   */
  function ShowSail(s: State, sail: ObjRef): (s': State)
    requires sail in s.renderable
    ensures Valid(s) ==> Valid(s')
    ensures s'.renderable == s.renderable
    ensures s'.hiddenSails == s.hiddenSails - {sail}
  {
    State(s.renderable[sail := s.renderable[sail]], s.hiddenSails - {sail})
  }

  /** `isNavigating`: a placeholder that always answers false. */
  function IsNavigating(): bool {
    false
  }

  /**
   `handleSail`'s decision for a given navigation status: hide when not navigating;
   when navigating, show, which changes no renderable and only forgets the sail.
   */
  function HandleSailWhen(s: State, sail: ObjRef, navigating: bool): (s': State)
    requires sail in s.renderable
    ensures Valid(s) ==> Valid(s')
    ensures s'.renderable.Keys == s.renderable.Keys
    ensures !navigating ==> s' == HideSail(s, sail)
    ensures navigating ==> s'.renderable == s.renderable && s'.hiddenSails == s.hiddenSails - {sail}
  {
    if !navigating then HideSail(s, sail) else ShowSail(s, sail)
  }

  /** `handleSail`: since the player is never navigating, handling a sail always hides it. */
  function HandleSail(s: State, sail: ObjRef): (s': State)
    requires sail in s.renderable
    ensures s' == HideSail(s, sail)
    ensures Valid(s) ==> Valid(s')
  {
    HandleSailWhen(s, sail, IsNavigating())
  }

  /** `onGameObjectDespawned`: forgets exactly that object; no renderable changes. */
  function OnGameObjectDespawned(s: State, obj: ObjRef): (s': State)
    ensures Valid(s) ==> Valid(s')
    ensures s'.renderable == s.renderable
    ensures s'.hiddenSails == s.hiddenSails - {obj}
  {
    s.(hiddenSails := s.hiddenSails - {obj})
  }

  /**
   `restoreAllSails`: re-sets each hidden sail's renderable to its current value,
   so no renderable changes, and empties `hiddenSails`.
   */
  function RestoreAllSails(s: State): (s': State)
    ensures Valid(s) ==> Valid(s')
    ensures s'.renderable == s.renderable
    ensures s'.hiddenSails == {}
  {
    State(s.renderable, {})
  }

  /**
   A sail hidden and then restored keeps a null renderable: the restore step writes
   back the value it reads, which hiding has already nulled.
   */
  lemma RestoreLeavesSailHidden(s: State, sail: ObjRef)
    requires sail in s.renderable && s.renderable[sail].Some?
    ensures RestoreAllSails(HideSail(s, sail)).renderable[sail] == None
    ensures RestoreAllSails(HideSail(s, sail)).renderable != s.renderable
  {
  }

  /** The object id is one of the listed sail ids. */
  predicate IsSailId(id: Int32, ids: seq<Int32>) {
    id in ids
  }

  /**
   `onGameObjectSpawned` for a given id list: a sail among the listed ids is
   handled (hence hidden); any other object changes nothing.
   */
  function OnGameObjectSpawnedWith(s: State, obj: SceneObject, ids: seq<Int32>): (s': State)
    requires obj.ref in s.renderable
    ensures obj.id in ids ==> s' == HideSail(s, obj.ref)
    ensures obj.id !in ids ==> s' == s
    ensures Valid(s) ==> Valid(s')
  {
    if IsSailId(obj.id, ids) then HandleSail(s, obj.ref) else s
  }

  /** With the shipped, empty id list a spawn never changes anything. */
  lemma SpawnIsInert(s: State, obj: SceneObject)
    requires obj.ref in s.renderable
    ensures OnGameObjectSpawnedWith(s, obj, SAIL_OBJECT_IDS) == s
  {
  }

  // Refreshing the whole scene

  /** A scene tile: the objects on it, null slots included. */
  datatype Tile = Tile(gameObjects: seq<Option<SceneObject>>)

  /** The inner loop over the id list: every listed id equal to the object's id handles it again. */
  function HandleMatching(s: State, obj: SceneObject, ids: seq<Int32>): (s': State)
    requires obj.ref in s.renderable
    ensures obj.id in ids ==> s' == HideSail(s, obj.ref)
    ensures obj.id !in ids ==> s' == s
    decreases |ids|
  {
    if ids == [] then s
    else
      var s1 := HandleMatching(s, obj, ids[..|ids| - 1]);
      HideSailIdempotent(s, obj.ref);
      if obj.id == ids[|ids| - 1] then HandleSail(s1, obj.ref) else s1
  }

  /** The references of the sails among `objs`. */
  function SailRefs(objs: seq<Option<SceneObject>>, ids: seq<Int32>): set<ObjRef>
    decreases |objs|
  {
    if objs == [] then {}
    else
      var last := objs[|objs| - 1];
      SailRefs(objs[..|objs| - 1], ids) + (if last.Some? && last.value.id in ids then {last.value.ref} else {})
  }

  /** The references of the sails on the non-null tiles of `tiles`. */
  function TileSailRefs(tiles: seq<Option<Tile>>, ids: seq<Int32>): set<ObjRef>
    decreases |tiles|
  {
    if tiles == [] then {}
    else
      var last := tiles[|tiles| - 1];
      TileSailRefs(tiles[..|tiles| - 1], ids) + (if last.Some? then SailRefs(last.value.gameObjects, ids) else {})
  }

  /** Every object on the tile is a known object. */
  predicate TileInWorld(s: State, tile: Tile) {
    forall k :: 0 <= k < |tile.gameObjects| && tile.gameObjects[k].Some? ==>
                  tile.gameObjects[k].value.ref in s.renderable
  }

  /** Every object on the non-null tiles is a known object. */
  predicate InWorld(s: State, tiles: seq<Option<Tile>>) {
    forall t :: 0 <= t < |tiles| && tiles[t].Some? ==> TileInWorld(s, tiles[t].value)
  }

  /**
   The reference state after hiding every object in `sails`: each of them has a
   null renderable, those that had a renderable join `hiddenSails`, and nothing
   else changes.
   */
  function HideAll(s: State, sails: set<ObjRef>): State {
    State(map o | o in s.renderable :: if o in sails then None else s.renderable[o],
          s.hiddenSails + set o | o in sails && o in s.renderable && s.renderable[o].Some?)
  }

  /** Hiding one more sail after a batch equals hiding the enlarged batch. */
  lemma HideAllInsert(s: State, sails: set<ObjRef>, sail: ObjRef)
    requires sail in s.renderable
    ensures HideSail(HideAll(s, sails), sail) == HideAll(s, sails + {sail})
  {
  }

  /**
   The loops over one tile's objects and over the id list: every sail on the tile
   is hidden on top of the sails already hidden.
   */
  method HandleTile(s: State, current: State, done: set<ObjRef>, tile: Tile, ids: seq<Int32>)
    returns (next: State)
    requires TileInWorld(s, tile)
    requires current == HideAll(s, done)
    ensures next == HideAll(s, done + SailRefs(tile.gameObjects, ids))
  {
    var objs := tile.gameObjects;
    next := current;
    var k := 0;
    while k < |objs|
      invariant 0 <= k <= |objs|
      invariant next == HideAll(s, done + SailRefs(objs[..k], ids))
    {
      var before := done + SailRefs(objs[..k], ids);
      SailRefsStep(objs, k, ids);
      if objs[k].Some? {
        var obj := objs[k].value;
        if obj.id in ids {
          HideAllInsert(s, before, obj.ref);
          assert done + SailRefs(objs[..k + 1], ids) == before + {obj.ref};
        } else {
          assert done + SailRefs(objs[..k + 1], ids) == before;
        }
        next := HandleMatching(next, obj, ids);
      } else {
        assert done + SailRefs(objs[..k + 1], ids) == before;
      }
      k := k + 1;
    }
    assert objs[..|objs|] == objs;
  }

  /**
   `refreshAllExistingSails`: without a scene nothing changes; otherwise every sail
   on a non-null tile (null tiles and null objects skipped) is hidden, no other
   object changes, and the invariant is kept.
   */
  method RefreshAllExistingSails(s: State, scene: Option<seq<Option<Tile>>>, ids: seq<Int32>)
    returns (s': State)
    requires scene.Some? ==> InWorld(s, scene.value)
    ensures scene.None? ==> s' == s
    ensures scene.Some? ==> s' == HideAll(s, TileSailRefs(scene.value, ids))
    ensures Valid(s) ==> Valid(s')
  {
    if scene.None? {
      return s;
    }
    var tiles := scene.value;
    HideNothing(s);
    s' := s;
    var t := 0;
    while t < |tiles|
      invariant 0 <= t <= |tiles|
      invariant s' == HideAll(s, TileSailRefs(tiles[..t], ids))
    {
      TileSailRefsStep(tiles, t, ids);
      match tiles[t] {
        case None =>
        case Some(tile) =>
          s' := HandleTile(s, s', TileSailRefs(tiles[..t], ids), tile, ids);
      }
      t := t + 1;
    }
    assert tiles[..|tiles|] == tiles;
    HideAllValid(s, TileSailRefs(tiles, ids));
  }

  lemma HideNothing(s: State)
    ensures HideAll(s, {}) == s
  {
  }

  lemma SailRefsStep(objs: seq<Option<SceneObject>>, k: nat, ids: seq<Int32>)
    requires k < |objs|
    ensures SailRefs(objs[..k + 1], ids) ==
              SailRefs(objs[..k], ids) + (if objs[k].Some? && objs[k].value.id in ids then {objs[k].value.ref} else {})
  {
    assert objs[..k + 1][..k] == objs[..k];
  }

  lemma TileSailRefsStep(tiles: seq<Option<Tile>>, t: nat, ids: seq<Int32>)
    requires t < |tiles|
    ensures TileSailRefs(tiles[..t + 1], ids) ==
              TileSailRefs(tiles[..t], ids) + (if tiles[t].Some? then SailRefs(tiles[t].value.gameObjects, ids) else {})
  {
    assert tiles[..t + 1][..t] == tiles[..t];
  }

  lemma HideAllValid(s: State, sails: set<ObjRef>)
    ensures Valid(s) ==> Valid(HideAll(s, sails))
  {
  }

  /** `startUp` refreshes the scene; with the shipped, empty id list that changes nothing. */
  method StartUp(s: State, scene: Option<seq<Option<Tile>>>) returns (s': State)
    requires scene.Some? ==> InWorld(s, scene.value)
    ensures s' == s
  {
    s' := RefreshAllExistingSails(s, scene, SAIL_OBJECT_IDS);
    if scene.Some? {
      NoSailsWithoutIds(scene.value);
      HideNothing(s);
    }
  }

  lemma {:induction false} NoSailsWithoutIds(tiles: seq<Option<Tile>>)
    ensures TileSailRefs(tiles, []) == {}
    decreases |tiles|
  {
    if tiles != [] {
      NoSailsWithoutIds(tiles[..|tiles| - 1]);
      var last := tiles[|tiles| - 1];
      if last.Some? {
        NoSailsOnTileWithoutIds(last.value.gameObjects);
      }
    }
  }

  lemma {:induction false} NoSailsOnTileWithoutIds(objs: seq<Option<SceneObject>>)
    ensures SailRefs(objs, []) == {}
    decreases |objs|
  {
    if objs != [] {
      NoSailsOnTileWithoutIds(objs[..|objs| - 1]);
    }
  }

  /**
   `onGameStateChanged`: logging in refreshes the scene when there is one; no scene
   or any other state changes nothing. With the shipped, empty id list a refresh
   finds no sail, so the handler changes nothing at all.
   */
  method OnGameStateChanged(s: State, gameState: GameState, scene: Option<seq<Option<Tile>>>)
    returns (s': State)
    requires scene.Some? ==> InWorld(s, scene.value)
    ensures gameState != LoggedIn ==> s' == s
    ensures scene.None? ==> s' == s
    ensures gameState == LoggedIn && scene.Some? ==> s' == HideAll(s, TileSailRefs(scene.value, SAIL_OBJECT_IDS))
    ensures Valid(s) ==> Valid(s')
    ensures s' == s
  {
    s' := s;
    if gameState == LoggedIn {
      s' := RefreshAllExistingSails(s, scene, SAIL_OBJECT_IDS);
      if scene.Some? {
        NoSailsWithoutIds(scene.value);
        HideNothing(s);
      }
    }
  }

  /** `shutDown` restores all sails: `hiddenSails` is emptied and no renderable changes. */
  function ShutDown(s: State): (s': State)
    ensures s'.hiddenSails == {} && s'.renderable == s.renderable
  {
    RestoreAllSails(s)
  }
}

/**
 The evidently intended behaviour of `showSail` and `restoreAllSails` in the
 renderable-nulling plugin: hiding remembers the renderable it removes, and
 showing or restoring puts that renderable back.
 */
module SailRestore {
  import opened Wrappers
  import RenderablePlugin

  type ObjRef = RenderablePlugin.ObjRef
  type Renderable = RenderablePlugin.Renderable

  /** Every object's renderable, and for each hidden sail the renderable it had before hiding. */
  datatype State = State(renderable: map<ObjRef, Option<Renderable>>, hiddenSails: map<ObjRef, Renderable>)

  /** Every hidden sail is a known object whose renderable is null. */
  predicate Valid(s: State) {
    s.hiddenSails.Keys <= s.renderable.Keys &&
    forall o :: o in s.hiddenSails ==> s.renderable[o] == None
  }

  /** Hiding as in the plugin, but remembering the removed renderable. */
  function HideSail(s: State, sail: ObjRef): (s': State)
    requires sail in s.renderable
    ensures Valid(s) ==> Valid(s')
    ensures s'.renderable.Keys == s.renderable.Keys
    ensures s'.renderable[sail] == None
    ensures s.renderable[sail].Some? ==> s'.hiddenSails == s.hiddenSails[sail := s.renderable[sail].value]
    ensures forall o :: o in s.renderable && o != sail ==> s'.renderable[o] == s.renderable[o]
    ensures s.renderable[sail].None? ==> s' == s
  {
    match s.renderable[sail]
    case None => s
    case Some(r) => State(s.renderable[sail := None], s.hiddenSails[sail := r])
  }

  /** Showing a hidden sail puts its remembered renderable back. */
  function ShowSail(s: State, sail: ObjRef): (s': State)
    requires sail in s.renderable
    ensures Valid(s) ==> Valid(s')
    ensures sail !in s'.hiddenSails
    ensures s'.renderable.Keys == s.renderable.Keys
    ensures sail in s.hiddenSails ==> s'.renderable[sail] == Some(s.hiddenSails[sail])
    ensures sail in s.hiddenSails ==>
              s'.hiddenSails == s.hiddenSails - {sail} &&
              forall o :: o in s.renderable && o != sail ==> s'.renderable[o] == s.renderable[o]
    ensures sail !in s.hiddenSails ==> s' == s
  {
    if sail in s.hiddenSails then
      State(s.renderable[sail := Some(s.hiddenSails[sail])], s.hiddenSails - {sail})
    else
      s
  }

  /** Restoring puts every hidden sail's remembered renderable back and forgets them all. */
  function RestoreAllSails(s: State): (s': State)
    requires Valid(s)
    ensures s'.hiddenSails == map[]
    ensures s'.renderable.Keys == s.renderable.Keys
    ensures forall o :: o in s.hiddenSails ==> s'.renderable[o] == Some(s.hiddenSails[o])
    ensures forall o :: o in s.renderable && o !in s.hiddenSails ==> s'.renderable[o] == s.renderable[o]
  {
    State(map o | o in s.renderable :: if o in s.hiddenSails then Some(s.hiddenSails[o]) else s.renderable[o],
          map[])
  }

  /** Showing a sail right after hiding it gives it back its renderable. */
  lemma ShowUndoesHide(s: State, sail: ObjRef)
    requires Valid(s) && sail in s.renderable && s.renderable[sail].Some?
    ensures ShowSail(HideSail(s, sail), sail).renderable == s.renderable
  {
  }

  /** Hiding a sail and then restoring is the same as restoring: the sail is visible again. */
  lemma RestoreUndoesHide(s: State, sail: ObjRef)
    requires Valid(s) && sail in s.renderable
    ensures RestoreAllSails(HideSail(s, sail)) == RestoreAllSails(s)
  {
  }
}

=== FILE: sail_overlay.dfy ===
/**
 The cover overlay (src/main/java/.../HideSailOverlay.java): while the plugin is
 in salvaging mode it paints an opaque polygon over the tile of every configured
 sail object near the local player. The screen projection of a tile is an
 input; drawing itself is reduced to the list of polygons painted, in order.
 */
module SailOverlay {
  import opened Wrappers
  import opened JavaInt
  import opened Scene
  import opened Proximity
  import SalvagePlugin

  /** An opaque screen polygon. */
  type Polygon = nat

  datatype Dimension = Dimension(width: int, height: int)

  /** What one `render` call does: the polygons painted, in order, and the size reported. */
  datatype Frame = Frame(covers: seq<Polygon>, size: Option<Dimension>)

  /** The per-object test of the render loop: a non-null sail with a position near the player. */
  predicate IsCoveredSail(obj: Option<GameObject>, sailId: Int32, player: Option<Player>) {
    obj.Some? && obj.value.id == sailId && obj.value.location.Some? &&
    IsNearPlayer(player, obj.value.location)
  }

  /**
   `r` is a subsequence of the present objects of `objs`: its elements occur in
   `objs`, wrapped in `Some`, in the same order.
   */
  predicate Embeds(r: seq<GameObject>, objs: seq<Option<GameObject>>)
    decreases |objs|
  {
    if r == [] then true
    else if objs == [] then false
    else if objs[|objs| - 1] == Some(r[|r| - 1]) then Embeds(r[..|r| - 1], objs[..|objs| - 1])
    else Embeds(r, objs[..|objs| - 1])
  }

  /** The objects the render loop covers, in input order. */
  function SelectSails(objs: seq<Option<GameObject>>, sailId: Int32, player: Option<Player>): (r: seq<GameObject>)
    ensures forall k :: 0 <= k < |r| ==> IsCoveredSail(Some(r[k]), sailId, player)
    ensures |r| <= |objs|
    ensures Embeds(r, objs)
    decreases |objs|
  {
    if objs == [] then []
    else
      var prefix := SelectSails(objs[..|objs| - 1], sailId, player);
      var last := objs[|objs| - 1];
      if IsCoveredSail(last, sailId, player) then prefix + [last.value] else prefix
  }

  /** An object is covered exactly when it is in the list and passes every test of the loop. */
  lemma {:induction false} SelectSailsMembership(objs: seq<Option<GameObject>>, sailId: Int32,
                                                 player: Option<Player>, o: GameObject)
    ensures o in SelectSails(objs, sailId, player) <==>
              Some(o) in objs && IsCoveredSail(Some(o), sailId, player)
    decreases |objs|
  {
    if objs != [] {
      var init := objs[..|objs| - 1];
      SelectSailsMembership(init, sailId, player, o);
      assert objs == init + [objs[|objs| - 1]];
    }
  }

  /** Objects other than the configured sail are never covered. */
  lemma OtherObjectsNeverCovered(objs: seq<Option<GameObject>>, sailId: Int32,
                                 player: Option<Player>, o: GameObject)
    requires o.id != sailId
    ensures o !in SelectSails(objs, sailId, player)
  {
  }

  /** The polygons painted for the selected objects: those whose tile projects to a polygon. */
  function Covers(selected: seq<GameObject>, project: (LocalPoint, Int32) -> Option<Polygon>): (r: seq<Polygon>)
    requires forall k :: 0 <= k < |selected| ==> selected[k].location.Some?
    ensures |r| <= |selected|
    decreases |selected|
  {
    if selected == [] then []
    else
      var prefix := Covers(selected[..|selected| - 1], project);
      var last := selected[|selected| - 1];
      match project(last.location.value, last.plane)
      case None => prefix
      case Some(poly) => prefix + [poly]
  }

  /** Every selected object whose tile projects gets its polygon painted. */
  lemma {:induction false} CoversComplete(selected: seq<GameObject>, project: (LocalPoint, Int32) -> Option<Polygon>, k: int)
    requires forall j :: 0 <= j < |selected| ==> selected[j].location.Some?
    requires 0 <= k < |selected| && project(selected[k].location.value, selected[k].plane).Some?
    ensures project(selected[k].location.value, selected[k].plane).value in Covers(selected, project)
    decreases |selected|
  {
    if k < |selected| - 1 {
      CoversComplete(selected[..|selected| - 1], project, k);
    }
  }

  /** Every painted polygon is the projection of some selected object. */
  lemma {:induction false} CoversSound(selected: seq<GameObject>, project: (LocalPoint, Int32) -> Option<Polygon>, p: Polygon)
    requires forall j :: 0 <= j < |selected| ==> selected[j].location.Some?
    requires p in Covers(selected, project)
    ensures exists k :: 0 <= k < |selected| && project(selected[k].location.value, selected[k].plane) == Some(p)
    decreases |selected|
  {
    var init := selected[..|selected| - 1];
    var last := selected[|selected| - 1];
    if p in Covers(init, project) {
      CoversSound(init, project, p);
      var k :| 0 <= k < |init| && project(init[k].location.value, init[k].plane) == Some(p);
      assert selected[k] == init[k];
    } else {
      assert project(last.location.value, last.plane) == Some(p);
    }
  }

  /** Extending the selected list by one object paints at most that object's polygon more. */
  lemma CoversAppend(selected: seq<GameObject>, o: GameObject, project: (LocalPoint, Int32) -> Option<Polygon>)
    requires forall k :: 0 <= k < |selected| ==> selected[k].location.Some?
    requires o.location.Some?
    ensures Covers(selected + [o], project) ==
              Covers(selected, project) +
              (match project(o.location.value, o.plane) case None => [] case Some(p) => [p])
  {
  }

  /** What the render loop paints for one entry of the object list. */
  function PaintedFor(obj: Option<GameObject>, sailId: Int32, player: Option<Player>,
                      project: (LocalPoint, Int32) -> Option<Polygon>): seq<Polygon>
  {
    if IsCoveredSail(obj, sailId, player) then
      match project(obj.value.location.value, obj.value.plane)
      case None => []
      case Some(p) => [p]
    else []
  }

  /** The render loop's output built entry by entry. */
  function Painted(objs: seq<Option<GameObject>>, sailId: Int32, player: Option<Player>,
                   project: (LocalPoint, Int32) -> Option<Polygon>): seq<Polygon>
    decreases |objs|
  {
    if objs == [] then []
    else Painted(objs[..|objs| - 1], sailId, player, project) +
         PaintedFor(objs[|objs| - 1], sailId, player, project)
  }

  /** Painting entry by entry is painting the covers of the selected sails. */
  lemma {:induction false} PaintedIsCoversOfSelected(objs: seq<Option<GameObject>>, sailId: Int32,
                                                     player: Option<Player>,
                                                     project: (LocalPoint, Int32) -> Option<Polygon>)
    ensures Painted(objs, sailId, player, project) == Covers(SelectSails(objs, sailId, player), project)
    decreases |objs|
  {
    if objs != [] {
      var init := objs[..|objs| - 1];
      var last := objs[|objs| - 1];
      PaintedIsCoversOfSelected(init, sailId, player, project);
      if IsCoveredSail(last, sailId, player) {
        assert SelectSails(objs, sailId, player) == SelectSails(init, sailId, player) + [last.value];
        CoversAppend(SelectSails(init, sailId, player), last.value, project);
      } else {
        assert SelectSails(objs, sailId, player) == SelectSails(init, sailId, player);
      }
    }
  }

  /** The render loop: the polygons of the selected sails, in input order. */
  method PaintSails(objs: seq<Option<GameObject>>, sailId: Int32, player: Option<Player>,
                    project: (LocalPoint, Int32) -> Option<Polygon>)
    returns (covers: seq<Polygon>)
    ensures covers == Covers(SelectSails(objs, sailId, player), project)
  {
    covers := [];
    var i := 0;
    while i < |objs|
      invariant 0 <= i <= |objs|
      invariant covers == Painted(objs[..i], sailId, player, project)
    {
      assert objs[..i + 1][..i] == objs[..i];
      var obj := objs[i];
      if IsCoveredSail(obj, sailId, player) {
        var sail := obj.value;
        var poly := project(sail.location.value, sail.plane);
        if poly.Some? {
          covers := covers + [poly.value];
        }
      }
      i := i + 1;
    }
    assert objs[..|objs|] == objs;
    PaintedIsCoversOfSelected(objs, sailId, player, project);
  }

  /**
   `render`: outside salvaging mode, without an object listing, or with an empty
   one, nothing is painted. Otherwise the polygons of the selected sails are
   painted in input order, skipping tiles that do not project. The reported size
   is always null.
   */
  method Render(plugin: SalvagePlugin.State, player: Option<Player>,
                objects: Option<seq<Option<GameObject>>>, cfg: Config,
                project: (LocalPoint, Int32) -> Option<Polygon>)
    returns (frame: Frame)
    ensures frame.size.None?
    ensures !plugin.salvaging || objects.None? || objects.value == [] ==> frame.covers == []
    ensures plugin.salvaging && objects.Some? ==>
              frame.covers == Covers(SelectSails(objects.value, cfg.sailObjectId, player), project)
  {
    if !SalvagePlugin.IsSalvaging(plugin) {
      return Frame([], None);
    }
    if objects.None? || objects.value == [] {
      return Frame([], None);
    }
    var covers := PaintSails(objects.value, cfg.sailObjectId, player, project);
    return Frame(covers, None);
  }
}

=== FILE: salvage_plugin.dfy ===
/**
 The overlay-based plugin (src/main/java/.../HideBoatSailsPlugin.java): a timed
 "salvaging" mode entered by clicking a salvage menu option, kept alive while the
 player animates and left once the timeout passes, plus a set of object keys
 seen in spawn events. The wall clock, the local player and the configuration
 are inputs to every transition.
 */
module SalvagePlugin {
  import opened Wrappers
  import opened JavaInt
  import opened Text
  import opened Scene
  import opened ObjectKey
  import opened Proximity

  /** `salvaging`, `salvageExpiry` (milliseconds) and the `handled` key set. */
  datatype State = State(salvaging: bool, salvageExpiry: int, handled: set<Int32>)

  /** The field initialisers. */
  const Initial: State := State(false, 0, {})

  /** The menu-option word that switches salvaging mode on. */
  const SALVAGE_WORD: string := "salvage"

  /** The configured timeout in milliseconds (`durationSec * 1000L`, computed in `long`). */
  function HideDurationMillis(cfg: Config): int {
    cfg.hideDurationSeconds * 1000
  }

  /** `startUp`: forgets the handled keys; salvaging mode is left as it was. */
  function StartUp(s: State): (s': State)
    ensures s'.handled == {}
    ensures s'.salvaging == s.salvaging && s'.salvageExpiry == s.salvageExpiry
  {
    s.(handled := {})
  }

  /** `shutDown`: leaves salvaging mode, zeroes the expiry and forgets the handled keys. */
  function ShutDown(s: State): (s': State)
    ensures !s'.salvaging && s'.salvageExpiry == 0 && s'.handled == {}
  {
    Initial
  }

  /** `isSalvaging`, read by the overlay. */
  function IsSalvaging(s: State): bool {
    s.salvaging
  }

  /** `isNearPlayer(GameObject)`: false for a null object, else the test on the object's position. */
  function IsNearPlayerObject(player: Option<Player>, obj: Option<GameObject>): (r: bool)
    ensures obj.None? ==> !r
    ensures obj.Some? ==> r == IsNearPlayer(player, obj.value.location)
    ensures r ==> obj.value.location.Some?
  {
    match obj
    case None => false
    case Some(o) => IsNearPlayer(player, o.location)
  }

  /** The menu option names a salvage action: "salvage" occurs in it in any letter case. */
  ghost predicate MentionsSalvage(option: string) {
    exists i :: MatchesAt(option, SALVAGE_WORD, i)
  }

  /**
   `onMenuOptionClicked`: an option mentioning "salvage" in any letter case turns
   salvaging mode on with a fresh expiry one timeout after `now`; a null option or
   any other option changes nothing.
   */
  function OnMenuOptionClicked(s: State, option: Option<string>, now: int, cfg: Config): (s': State)
    ensures option.None? ==> s' == s
    ensures option.Some? && !MentionsSalvage(option.value) ==> s' == s
    ensures option.Some? && MentionsSalvage(option.value) ==>
              s'.salvaging && s'.salvageExpiry == now + HideDurationMillis(cfg)
    ensures s'.handled == s.handled
  {
    match option
    case None => s
    case Some(opt) =>
      ContainsLowerIff(opt, SALVAGE_WORD);
      if Contains(ToLower(opt), SALVAGE_WORD) then
        s.(salvaging := true, salvageExpiry := now + HideDurationMillis(cfg))
      else
        s
  }

  /**
   `onGameTick`: nothing happens outside salvaging mode or without a local player.
   Otherwise an animating player pushes the expiry to one timeout after `now`, and
   the mode ends exactly when `now` is strictly past the (possibly new) expiry.
   */
  function OnGameTick(s: State, player: Option<Player>, now: int, cfg: Config): (s': State)
    ensures !s.salvaging ==> s' == s
    ensures player.None? ==> s' == s
    ensures s.salvaging && player.Some? && player.value.animation != IDLE_ANIMATION ==>
              s'.salvageExpiry == now + HideDurationMillis(cfg)
    ensures player.Some? && player.value.animation == IDLE_ANIMATION ==>
              s'.salvageExpiry == s.salvageExpiry
    ensures s.salvaging && player.Some? ==> (s'.salvaging <==> now <= s'.salvageExpiry)
    ensures s'.salvaging ==> s.salvaging
    ensures s'.handled == s.handled
  {
    if !s.salvaging then s
    else
      match player
      case None => s
      case Some(local) =>
        var expiry := if local.animation != IDLE_ANIMATION then now + HideDurationMillis(cfg)
                      else s.salvageExpiry;
        var stillSalvaging := !(now > expiry);
        s.(salvageExpiry := expiry, salvaging := stillSalvaging)
  }

  /** `onGameObjectSpawned`: a non-null object's key joins `handled`; nothing else changes. */
  function OnGameObjectSpawned(s: State, obj: Option<GameObject>): (s': State)
    ensures obj.None? ==> s' == s
    ensures obj.Some? ==> s'.handled == s.handled + {MakeObjectKey(obj.value)}
    ensures s'.salvaging == s.salvaging && s'.salvageExpiry == s.salvageExpiry
  {
    match obj
    case None => s
    case Some(o) => s.(handled := s.handled + {MakeObjectKey(o)})
  }

  /** `onGameStateChanged`: logging in forgets the handled keys; other states change nothing. */
  function OnGameStateChanged(s: State, gameState: GameState): (s': State)
    ensures gameState == LoggedIn ==> s'.handled == {}
    ensures gameState != LoggedIn ==> s' == s
    ensures s'.salvaging == s.salvaging && s'.salvageExpiry == s.salvageExpiry
  {
    if gameState == LoggedIn then s.(handled := {}) else s
  }

  // Properties of a single transition

  /** With a non-negative timeout an animating player never ends salvaging mode on that tick. */
  lemma AnimationKeepsSalvaging(s: State, pl: Player, now: int, cfg: Config)
    requires s.salvaging && pl.animation != IDLE_ANIMATION && cfg.hideDurationSeconds >= 0
    ensures OnGameTick(s, Some(pl), now, cfg).salvaging
  {
  }

  /** The comparison is strict: a tick exactly at the expiry keeps salvaging mode on. */
  lemma TickAtExpiryKeepsSalvaging(s: State, pl: Player, cfg: Config)
    requires s.salvaging && pl.animation == IDLE_ANIMATION
    ensures OnGameTick(s, Some(pl), s.salvageExpiry, cfg).salvaging
    ensures !OnGameTick(s, Some(pl), s.salvageExpiry + 1, cfg).salvaging
  {
  }

  /** The menu text is matched without regard to letter case. */
  lemma MenuMatchIgnoresCase(s: State, a: string, b: string, now: int, cfg: Config)
    requires |a| == |b|
    requires forall i :: 0 <= i < |a| ==> Lower(a[i]) == Lower(b[i])
    ensures OnMenuOptionClicked(s, Some(a), now, cfg) == OnMenuOptionClicked(s, Some(b), now, cfg)
  {
    assert ToLower(a) == ToLower(b);
  }

  /** The game's own menu text "Salvage" switches salvaging mode on. */
  lemma SalvageOptionEntersMode(s: State, now: int, cfg: Config)
    ensures OnMenuOptionClicked(s, Some("Salvage"), now, cfg).salvaging
  {
    assert MatchesAt("Salvage", SALVAGE_WORD, 0);
  }

  // Sequences of ticks

  /** One game tick: the local player at that tick and the clock reading. */
  datatype Tick = Tick(player: Option<Player>, now: int)

  /** The state after a run of game ticks, oldest first. */
  function RunTicks(s: State, ticks: seq<Tick>, cfg: Config): State
    decreases |ticks|
  {
    if ticks == [] then s
    else RunTicks(OnGameTick(s, ticks[0].player, ticks[0].now, cfg), ticks[1..], cfg)
  }

  /** Ticks alone never enter salvaging mode: outside it, any run of ticks changes nothing. */
  lemma {:induction false} TicksNeverEnterSalvaging(s: State, ticks: seq<Tick>, cfg: Config)
    requires !s.salvaging
    ensures RunTicks(s, ticks, cfg) == s
    decreases |ticks|
  {
    if ticks != [] {
      TicksNeverEnterSalvaging(OnGameTick(s, ticks[0].player, ticks[0].now, cfg), ticks[1..], cfg);
    }
  }

  /**
   Salvaging mode lasts at least until `deadline` when the expiry is at least the
   deadline, the timeout is non-negative and every tick's clock reading lies
   between one timeout before the deadline and the deadline itself.
   */
  lemma {:induction false} SalvagingLastsUntilDeadline(s: State, ticks: seq<Tick>, cfg: Config, deadline: int)
    requires s.salvaging && s.salvageExpiry >= deadline
    requires cfg.hideDurationSeconds >= 0
    requires forall k :: 0 <= k < |ticks| ==>
               deadline - HideDurationMillis(cfg) <= ticks[k].now <= deadline
    ensures RunTicks(s, ticks, cfg).salvaging
    ensures RunTicks(s, ticks, cfg).salvageExpiry >= deadline
    decreases |ticks|
  {
    if ticks != [] {
      var s1 := OnGameTick(s, ticks[0].player, ticks[0].now, cfg);
      assert s1.salvaging && s1.salvageExpiry >= deadline;
      SalvagingLastsUntilDeadline(s1, ticks[1..], cfg, deadline);
    }
  }

  /**
   After a salvage click at time `t`, every run of ticks whose clock readings lie
   in `[t, t + timeout]` leaves salvaging mode on.
   */
  lemma ClickHidesForTimeout(s: State, option: string, t: int, ticks: seq<Tick>, cfg: Config)
    requires MentionsSalvage(option)
    requires cfg.hideDurationSeconds >= 0
    requires forall k :: 0 <= k < |ticks| ==> t <= ticks[k].now <= t + HideDurationMillis(cfg)
    ensures RunTicks(OnMenuOptionClicked(s, Some(option), t, cfg), ticks, cfg).salvaging
  {
    SalvagingLastsUntilDeadline(OnMenuOptionClicked(s, Some(option), t, cfg), ticks, cfg, t + HideDurationMillis(cfg));
  }

  /** With a non-negative timeout, a run of ticks with an animating player keeps salvaging mode on. */
  lemma {:induction false} AnimatingPlayerKeepsSalvaging(s: State, ticks: seq<Tick>, cfg: Config)
    requires s.salvaging && cfg.hideDurationSeconds >= 0
    requires forall k :: 0 <= k < |ticks| ==>
               ticks[k].player.Some? && ticks[k].player.value.animation != IDLE_ANIMATION
    ensures RunTicks(s, ticks, cfg).salvaging
    decreases |ticks|
  {
    if ticks != [] {
      AnimatingPlayerKeepsSalvaging(OnGameTick(s, ticks[0].player, ticks[0].now, cfg), ticks[1..], cfg);
    }
  }
}

=== FILE: scene.dfy ===
/**
 The host-client records the plugins read: scene positions, the local player,
 game objects, game states and the plugin's configuration. Only the fields the
 plugins consult are kept.
 */
module Scene {
  import opened Wrappers
  import opened JavaInt

  /** A scene position in local units (128 per tile). */
  datatype LocalPoint = LocalPoint(x: Int32, y: Int32)

  /** The local player: its position (possibly not yet known) and current animation id. */
  datatype Player = Player(location: Option<LocalPoint>, animation: Int32)

  /** The animation id the client reports for a player doing nothing. */
  const IDLE_ANIMATION: Int32 := -1

  /** A scene object: its object id, its position (possibly absent) and its plane. */
  datatype GameObject = GameObject(id: Int32, location: Option<LocalPoint>, plane: Int32)

  /** The client's connection states; the plugins react only to `LoggedIn`. */
  datatype GameState =
    | Unknown
    | Starting
    | LoginScreen
    | LoginScreenAuthenticator
    | LoggingIn
    | Loading
    | LoggedIn
    | ConnectionLost
    | Hopping

  /** The three configuration items: sail object id, salvaging timeout in seconds, debug logging. */
  datatype Config = Config(sailObjectId: Int32, hideDurationSeconds: Int32, debug: bool)

  /** The defaults the configuration interface declares. */
  const DefaultConfig: Config := Config(60473, 6, false)
}

=== FILE: text.dfy ===
/**
 The two `String` operations the menu-click handler uses: `toLowerCase` and
 `contains`. Lower-casing is modelled on ASCII letters only; no other character
 lower-cases to one of the letters of "salvage", so the handler's verdict is the
 same as with full Unicode case mapping.
 */
module Text {

  /** Lower-case form of one character (ASCII letters only). */
  function Lower(c: char): (r: char)
    ensures 'A' <= c <= 'Z' ==> 'a' <= r <= 'z' && r as int - c as int == 32
    ensures !('A' <= c <= 'Z') ==> r == c
  {
    if 'A' <= c <= 'Z' then (c as int + 32) as char else c
  }

  /** `String.toLowerCase()` on ASCII letters: every character lower-cased, none added or dropped. */
  function ToLower(s: string): (r: string)
    ensures |r| == |s|
    ensures forall i :: 0 <= i < |s| ==> r[i] == Lower(s[i])
  {
    if s == [] then [] else [Lower(s[0])] + ToLower(s[1..])
  }

  predicate IsPrefix(p: string, s: string) {
    |p| <= |s| && s[..|p|] == p
  }

  /** `String.contains`: `p` occurs somewhere in `s` (the empty string occurs everywhere). */
  function Contains(s: string, p: string): bool
    decreases |s|
  {
    IsPrefix(p, s) || (|s| > 0 && Contains(s[1..], p))
  }

  /** `s` holds, starting at position `i`, a case-insensitive copy of the lower-case word `p`. */
  ghost predicate MatchesAt(s: string, p: string, i: int) {
    0 <= i && i + |p| <= |s| && forall k :: 0 <= k < |p| ==> Lower(s[i + k]) == p[k]
  }

  /** Lower-casing commutes with dropping the first character. */
  lemma ToLowerTail(s: string)
    requires |s| > 0
    ensures ToLower(s)[1..] == ToLower(s[1..])
  {
  }

  /** The lower-cased string starts with `p` exactly when the original matches `p` at 0. */
  lemma PrefixIffMatchesAtZero(s: string, p: string)
    ensures IsPrefix(p, ToLower(s)) <==> MatchesAt(s, p, 0)
  {
  }

  lemma {:induction false} ContainsGivesMatch(s: string, p: string)
    requires Contains(ToLower(s), p)
    ensures exists i :: MatchesAt(s, p, i)
    decreases |s|
  {
    PrefixIffMatchesAtZero(s, p);
    if !IsPrefix(p, ToLower(s)) {
      ToLowerTail(s);
      ContainsGivesMatch(s[1..], p);
      var i :| MatchesAt(s[1..], p, i);
      assert MatchesAt(s, p, i + 1);
    }
  }

  lemma {:induction false} MatchGivesContains(s: string, p: string, i: int)
    requires MatchesAt(s, p, i)
    ensures Contains(ToLower(s), p)
    decreases i
  {
    PrefixIffMatchesAtZero(s, p);
    if i > 0 {
      assert MatchesAt(s[1..], p, i - 1);
      MatchGivesContains(s[1..], p, i - 1);
      ToLowerTail(s);
    }
  }

  /**
   Searching the lower-cased string for a lower-case word is the same as finding a
   position where the word occurs in the original string in any mix of letter cases.
   */
  lemma ContainsLowerIff(s: string, p: string)
    ensures Contains(ToLower(s), p) <==> exists i :: MatchesAt(s, p, i)
  {
    if Contains(ToLower(s), p) {
      ContainsGivesMatch(s, p);
    }
    if exists i :: MatchesAt(s, p, i) {
      var i :| MatchesAt(s, p, i);
      MatchGivesContains(s, p, i);
    }
  }
}

=== FILE: wrappers.dfy ===
/** The Some/None datatype used wherever the plugin code tests a reference for null. */
module Wrappers {

  /** `None` stands for a Java `null` reference, `Some(v)` for a present value `v`. */
  datatype Option<+T> = None | Some(value: T)
}
